=== FILE: README.md ===
# Import bindings: reading, rewriting and collecting them

This project models the core of `imports-visitor`, a library that finds every
import in a JavaScript module and lets a codemod read and change each one as an
`ImportDefinition`. It also models the request parser of the run-on-server
endpoint.

A program is a sequence of top-level statements. The model covers these shapes:

- ESM imports: `import a, { b as c } from "s"`, `import * as n from "s"`, and the bare `import "s"`.
- ESM re-exports: `export { … } from "s"` and `export * from "s"`.
- Variable declarations whose declarators may be `require("s")` calls. Their patterns may be an identifier, an object pattern, or something else.
- Statements holding dynamic `import("s")` calls.

An import entity is an `Anchor`: a statement index together with a location inside that statement. The locations are:

- a specifier;
- the whole declaration;
- a declarator;
- a property of a destructuring pattern;
- a dynamic call.

The getters of `ImportDefinition` are pure functions of `(statement, location)`. They compute flavor, source, variableName, importedExport, kind, isDynamicImport and the import siblings. Together these form the entity's `View`.

Every mutator has the same shape. It takes a program and an anchor. It returns one of two things:

- the new program, the entity's new anchor, and a log of structural edits;
- the error the JavaScript setter throws.

`Edits.RelocateAll` replays that log on any other anchor. This is how the model follows every other entity through the change, the way Babel's live paths do. `Edits.Keeps` states that the tracking is correct: each entity that survives is still valid after relocation and still has exactly the view it had before.

The modules follow the source:

- `Syntax`: the abstract program.
- `ImportDefinition`: the getters.
- `Edits`: the edit log and relocation.
- `ImportMutation`: fork, remove and the four setters.
- `AsWritten`: the as-written halves of the findings below.
- `MutationExamples`: rows of the mutators' test tables.
- `ImportsVisitor`: the collector.
- `Rewrite`: the `rewrite` codemod.
- `ParseRequest`: the server's request parser.

## Model

| member | source | states |
|---|---|---|
| Syntax.ParseKind | packages/imports-visitor/src/ImportDefinition.js:471-476 | only `value`, `type` and `typeof` are kinds; a parsed kind prints back as the given string, and a string is refused exactly when no kind has that name |
| ImportDefinition.FlavorOf | packages/imports-visitor/src/ImportDefinition.js:53-83 | an ESM import declaration or its specifiers give "esm import"; a re-export gives "esm re-export"; a require declarator or property gives "require"; a dynamic call gives "dynamic import". Each holds in both directions |
| ImportDefinition.IsDynamicImport | packages/imports-visitor/src/ImportDefinition.js:540-545 | true exactly when the flavor is "dynamic import" |
| ImportDefinition.Source | packages/imports-visitor/src/ImportDefinition.js:90-127 | both ESM flavors report the declaration's `from` string; only a require or a dynamic import whose argument is not a string literal has no source |
| ImportDefinition.VariableName | packages/imports-visitor/src/ImportDefinition.js:342-364 | every specifier binds a name; bare imports, `export *`, empty re-exports and dynamic imports bind none |
| ImportDefinition.ImportedExportOf | packages/imports-visitor/src/ImportDefinition.js:168-217 | `isImportedAsCJS` holds exactly for the require flavor; only a CJS binding may have an unknown export name; a whole declaration or a dynamic call takes `*` |
| ImportDefinition.KindOf | packages/imports-visitor/src/ImportDefinition.js:434-465 | require and dynamic imports are values; a specifier's own `importKind` wins over the declaration's flag, which wins over the default |
| ImportDefinition.ImportSiblings | packages/imports-visitor/src/ImportDefinition.js:665-695 | at least one; declarators, whole declarations and dynamic calls are always alone |
| Edits.InsertKeeps | packages/imports-visitor/src/ImportDefinition.js:623-625 | inserting a statement keeps every entity tracked: one at or after the new statement moves down by one, any other stays put, and no view changes |
| Edits.DeleteStmtKeeps | packages/imports-visitor/src/ImportDefinition.js:557-566 | deleting a statement retires exactly the entities it held; every other entity stays tracked, moves up by one when it came after, and keeps its view |
| Edits.DeleteMemberKeeps | packages/imports-visitor/src/ImportDefinition.js:567-576 | deleting one specifier, declarator or property retires exactly that entity; every other one stays tracked in its own statement with its view unchanged |
| Edits.TouchKeeps | packages/imports-visitor/src/ImportDefinition.js:128-166 | rewriting one statement in place keeps every other entity tracked at the same anchor with the same view, as long as the new statement agrees everywhere except at the touched location |
| Edits.RelocateAllSeparates | packages/imports-visitor/src/rewrite.js:33-46 | replaying one log keeps two distinct tracked entities distinct, and they end in one statement exactly when they started in one |
| ImportMutation.SoloStmt | packages/imports-visitor/src/ImportDefinition.js:600-655 | the one-binding statement for a member has exactly that member's view and no siblings; a property whose require has no literal source cannot be rebuilt |
| ImportMutation.Fork | packages/imports-visitor/src/ImportDefinition.js:585-655 | a lone binding is left untouched; otherwise the binding moves to a new statement right after (or before) the original, with the same view and no siblings, and the original loses exactly that member; nothing else moves |
| ImportMutation.ForkKeeps | packages/imports-visitor/src/ImportDefinition.js:585-655 | forking keeps every other entity tracked with its view and off the forked binding; when the binding had siblings, none of them lands in the new statement |
| ImportMutation.Remove | packages/imports-visitor/src/ImportDefinition.js:547-576 | dynamic imports cannot be removed; a declaration, or the only member of its list, takes its statement with it; otherwise only that member goes and every other statement stays |
| ImportMutation.RemoveKeeps | packages/imports-visitor/src/ImportDefinition.js:547-576 | removing retires exactly the removed entity, and with it the rest of a `require` declaration whose pattern loses its only property; every other entity keeps its view and moves up by one only when a statement before it went |
| ImportMutation.SetSource | packages/imports-visitor/src/ImportDefinition.js:128-166 | the entity then reports the new source and nothing else about it changes; its siblings keep the old source in the statement it was forked from; every statement other than the entity's own is exactly as the fork left it, and the entity's statement changes nowhere but at the entity; a null source fails |
| ImportMutation.SetSourceKeeps | packages/imports-visitor/src/ImportDefinition.js:128-166 | changing one entity's source keeps every other entity tracked with its view, never on the entity's new anchor, and in its new statement only when they shared the old one |
| ImportMutation.Renamed | packages/imports-visitor/src/ImportDefinition.js:400-432 | a binding can be renamed in place, except a property whose key is not an identifier |
| ImportMutation.SetVariableName | packages/imports-visitor/src/ImportDefinition.js:365-432 | assigning the current name is a no-op; bare imports, `export *` and dynamic imports are refused; otherwise the entity reports the new name in the same place, with its source, kind, flavor and imported export kept; every other statement is unchanged, and so is every other binding of its own statement |
| ImportMutation.SetVariableNameKeeps | packages/imports-visitor/src/ImportDefinition.js:365-432 | renaming one entity keeps every other entity tracked with its view, never on the entity's anchor, and in its statement only when they shared it before |
| ImportMutation.Rebound | packages/imports-visitor/src/ImportDefinition.js:240-340 | the rebuilt binding reports exactly the requested export pair with the same variable name and source, as a value; a CJS `*` becomes `const v = require(s)`; a CJS name becomes a shorthand property exactly when it equals the variable name; a null name, variable name or source fails |
| ImportMutation.Supplant | packages/imports-visitor/src/ImportDefinition.js:315-336 | the new statement goes right after the entity's statement, which loses exactly the old binding, or takes that statement's place when the binding was alone in it; the entity then sits at the requested location in the new statement |
| ImportMutation.SupplantKeeps | packages/imports-visitor/src/ImportDefinition.js:315-336 | inserting the new statement and removing the old binding retires exactly what the removal retires; every other entity keeps its view and lands outside the new statement |
| ImportMutation.SetImportedExport | packages/imports-visitor/src/ImportDefinition.js:218-340 | assigning the current pair is a no-op; dynamic and bare imports are refused; otherwise the entity reports the requested pair with its source and variable name kept, becomes a value binding, and takes the require flavor for a CJS pair; otherwise a re-export stays a re-export and anything else becomes an ESM import. A change yields the original program with the old binding removed and the statement `Rebound` builds inserted right after it, or in its place when the binding was alone, and fails exactly when `Rebound` fails |
| ImportMutation.SetImportedExportKeeps | packages/imports-visitor/src/ImportDefinition.js:218-340 | changing one entity's imported export keeps every other entity's view and tracks every entity except those the removal of the old binding retires; none of them lands in the new statement |
| ImportMutation.ForkThenSupplantKeeps | packages/imports-visitor/src/ImportDefinition.js:243-297 | forking a binding and replacing it by a new statement keeps every other entity's view, tracks each one the removal does not retire, and keeps them out of the new statement |
| ImportMutation.SetKindEsm | packages/imports-visitor/src/ImportDefinition.js:511-535 | forking and then retyping the declaration changes the entity's kind and nothing else about its view; the entity ends alone in a declaration flagged with the new kind, and the program grows by one statement only when it had siblings; apart from that declaration the program is exactly as the fork left it |
| ImportMutation.SetKind | packages/imports-visitor/src/ImportDefinition.js:466-538 | assigning the current kind is a no-op, even on a dynamic import; an unknown kind is refused; dynamic, bare and `export *` entities are refused; otherwise the entity reports the new kind with the same source and variable name, and a require binding becomes an ESM import of the same export (the corrected conversion; see Findings); on an ESM binding every statement other than the retyped declaration is exactly as the fork left it |
| ImportMutation.SetKindOfRequire | packages/imports-visitor/src/ImportDefinition.js:503-520 | giving a `require` binding a new kind yields the ESM import `Rebound` builds, flagged with that kind, in place of the old declaration or right after it when it keeps other bindings; this is the result index.test.js:1284-1336 expects, which the code as written does not reach (see Findings) |
| ImportMutation.SetKindKeeps | packages/imports-visitor/src/ImportDefinition.js:466-538 | changing one entity's kind keeps every other entity's view and tracks every entity except those the removal of a `require` binding retires |
| AsWritten.SetImportedExportAsWritten | packages/imports-visitor/src/ImportDefinition.js:274-297 | as written, an ESM assignment that succeeds leaves the entity on the first specifier of some statement, in a program no longer than before: nothing is inserted |
| AsWritten.LoneImportThrows | packages/imports-visitor/src/ImportDefinition.js:289-297 | `import foo from "foo"` set to `*` throws as written (the model shows the error, not the binding removed before it), but becomes `import * as foo from "foo"` when corrected |
| AsWritten.RequireKindThrows | packages/imports-visitor/src/ImportDefinition.js:503-508 | `const foo = require("bar")` set to `type` goes through the `importedExport` setter's ESM branch, which throws as written; corrected, it becomes `import type * as foo from "bar"` |
| AsWritten.ImportRetargetsToNextStatement | packages/imports-visitor/src/ImportDefinition.js:289-297 | with a statement after it, the same assignment as written deletes `foo` and leaves the entity reporting the next statement's binding |
| AsWritten.SoloStmtAsWritten | packages/imports-visitor/src/ImportDefinition.js:613-625 | the declaration `fork` builds as written keeps the view, except that the kind falls back to the specifier's own flag or to value |
| AsWritten.ForkDropsDeclarationKind | packages/imports-visitor/src/ImportDefinition.js:613-625 | forking `foo` out of `import type { foo, bar }` gives a value import as written and a type import when corrected |
| AsWritten.RetypedAsWritten | packages/imports-visitor/src/ImportDefinition.js:516-534 | setting only the declaration's flag changes the kind of a specifier without its own flag and leaves one with its own flag unchanged |
| AsWritten.KindSetterIgnoredUnderSpecifierFlag | packages/imports-visitor/src/ImportDefinition.js:445 | `import { type Foo }` set to value stays a type as written, and becomes a value when corrected |
| AsWritten.RenameSpecAsWritten | packages/imports-visitor/src/ImportDefinition.js:406-414 | a renamed named import specifier is rebuilt with no kind flag of its own; every other specifier keeps its own flag |
| AsWritten.RenameDropsSpecifierKind | packages/imports-visitor/src/ImportDefinition.js:409-414 | renaming `Foo` in `import { type Foo }` gives a value import as written and keeps the type when corrected |
| AsWritten.ReExportSpecAsWritten | packages/imports-visitor/src/ImportDefinition.js:262-264 | the re-export specifier built as written takes the variable name as its export and binds the requested name |
| AsWritten.ReExportNamesSwapped | packages/imports-visitor/src/ImportDefinition.js:283-286 | for `export { foo } from "foo"` re-pointed at `bar`, the statement built as written would take `foo` and bind `bar`, but the setter as written never inserts it and fails on this input; corrected, it takes `bar` and still binds `foo` |
| MutationExamples.RemoveDefaultBesideNamed | packages/imports-visitor/src/index.test.js:402-405 | removing `foo` from `import foo, { bar }` leaves `import { bar }`, with the log of one member deletion |
| MutationExamples.RemoveLoneAndDynamic | packages/imports-visitor/src/index.test.js:434-448 | removing a lone destructured property removes the statement; `import("foo")` cannot be removed |
| MutationExamples.ForkTwoNamed | packages/imports-visitor/src/index.test.js:494-501 | forking `foo` out of `import { foo, bar }` puts it after, or with `before` before, the remaining `bar` |
| MutationExamples.ForkDestructured | packages/imports-visitor/src/index.test.js:530-537 | forking `foo` out of `const { foo, bar } = require("bar")` gives two require declarations |
| MutationExamples.SourceOfForkedDefault | packages/imports-visitor/src/index.test.js:666-673 | re-sourcing `foo` in `import foo, { bar }` leaves `bar` on the old source and `foo` on the new one |
| MutationExamples.SourceOfDynamicAndBare | packages/imports-visitor/src/index.test.js:726-735 | a dynamic and a bare import are re-sourced in place |
| MutationExamples.RenameNamedAndProperty | packages/imports-visitor/src/index.test.js:784-815 | renaming gives `{ foo as newVar, bar }` and `const { foo: newVar }` |
| MutationExamples.RenameBareFails | packages/imports-visitor/src/index.test.js:821-825 | a bare import cannot be renamed |
| MutationExamples.DefaultToNamed | packages/imports-visitor/src/index.test.js:862-866 | `import foo` set to export `bar` becomes `import { bar as foo }` |
| MutationExamples.DefaultToCjs | packages/imports-visitor/src/index.test.js:868-879 | `import foo` set to CJS `*` becomes `const foo = require("foo")`, and set to CJS `bar` becomes `const { bar: foo } = require("foo")` |
| MutationExamples.BareImportedExportFails | packages/imports-visitor/src/index.test.js:1026-1030 | a bare import's imported export cannot change |
| MutationExamples.KindOfForkedDefault | packages/imports-visitor/src/index.test.js:1135-1143 | `foo` in `import foo, { bar }` set to type gives `import { bar }; import type foo` |
| MutationExamples.KindOfRequire | packages/imports-visitor/src/index.test.js:1284-1289 | `const foo = require("bar")` set to type becomes `import type * as foo from "bar"`, as the test expects, under the corrected conversion |
| MutationExamples.KindFailures | packages/imports-visitor/src/index.test.js:1344-1355 | dynamic and bare imports refuse a new kind, the current kind is a no-op, and an unknown kind is refused |
| ImportsVisitor.DeclaratorEntities | packages/imports-visitor/src/index.js:24-45 | a declarator contributes only when its initialiser is a `require` call: one entity per pattern property in order, or the declarator itself |
| ImportsVisitor.CollectStmt | packages/imports-visitor/src/index.js:13-49 | an import declaration gives one entity per specifier, or itself when it has none; a dynamic-import statement gives one entity per call; re-exports give none; the entities are exactly the valid locations of a collectable statement, in source order |
| ImportsVisitor.CollectFrom | packages/imports-visitor/src/index.js:13-49 | the entities of the statements from index `i` on are exactly their valid collectable anchors, in source order |
| ImportsVisitor.Collect | packages/imports-visitor/src/index.js:13-49 | an anchor is collected exactly when it is valid and its statement is not a re-export; the list is strictly in source order |
| ImportsVisitor.OrderedConcat | packages/imports-visitor/src/index.js:13-49 | entities of an earlier statement, followed by those of a later one, stay in source order |
| ImportsVisitor.CollectDistinct | packages/imports-visitor/src/index.js:13-49 | no entity is collected twice |
| ImportsVisitor.CollectedViews | packages/imports-visitor/src/index.js:13-49 | every collected entity has a flavor other than re-export |
| ImportsVisitor.OtherPatternView | packages/imports-visitor/src/ImportDefinition.js:186-194 | a `require` bound to a pattern that is neither identifier nor object has no variable name and an unknown CJS export |
| ImportsVisitor.ImportDeclarationsExample | packages/imports-visitor/src/index.test.js:44-109 | the collector's results for a module of import declarations |
| ImportsVisitor.PartialRequiresExample | packages/imports-visitor/src/index.test.js:153-194 | the collector's results for requires with non-literal arguments |
| ImportsVisitor.FlowExample | packages/imports-visitor/src/index.test.js:196-260 | the kinds collected from Flow type and typeof imports |
| ImportsVisitor.ReexportNotCollected | packages/imports-visitor/src/index.js:13-49 | an `export *` entity is valid, but it is not collected |
| Rewrite.FirstView | packages/imports-visitor/src/rewrite.js:24-31 | a snippet's first import is the view of its first collected entity, and there is none exactly when nothing is collected |
| Rewrite.Replace | packages/imports-visitor/src/rewrite.js:42-44 | a matched entity ends with the replacement's source, variable name and imported export |
| Rewrite.ReplaceKeeps | packages/imports-visitor/src/rewrite.js:42-44 | replacing one entity keeps every other entity's view and off the replaced one's new anchor; it loses another entity only when that entity shared the replaced one's `require` declaration |
| Rewrite.RelocatedValid | packages/imports-visitor/src/rewrite.js:33-46 | after a change that keeps views, every entity still tracked points at a valid location |
| Rewrite.Step | packages/imports-visitor/src/rewrite.js:34-45 | one pass of the loop body keeps every tracked entity valid |
| Rewrite.StepTracks | packages/imports-visitor/src/rewrite.js:34-45 | after one more pass, processed entities are rewritten exactly when they matched and the others keep their original views; tracked entities stay distinct, and each one no longer tracked shares its `require` declaration with a processed entity that matched |
| Rewrite.RewriteFromTracks | packages/imports-visitor/src/rewrite.js:33-46 | the loop as a whole rewrites exactly the matching entities, leaves every other entity's view as it was, and loses an entity only when it shared its `require` declaration with another entity that matched |
| Rewrite.RewriteSound | packages/imports-visitor/src/rewrite.js:19-47 | the result of `rewrite` has every collected entity of the input either replaced (when it matched the sample) or unchanged; an entity is lost only when it shared its `require` declaration with another entity that matched the sample, whose replacement took that declaration |
| Rewrite.NoMatchUnchanged | packages/imports-visitor/src/rewrite.js:33-46 | when no entity matches the sample, the code comes back as it was |
| Rewrite.IdleFrom | packages/imports-visitor/src/rewrite.js:34-46 | when no entity still tracked from position `m` on matches the sample, the rest of the loop changes nothing |
| Rewrite.MatchAheadFails | packages/imports-visitor/src/rewrite.js:29-44 | with no replacement import, any entity still tracked ahead that matches makes the loop fail |
| Rewrite.MatchWithoutReplacementFails | packages/imports-visitor/src/rewrite.js:29-44 | a match with a replacement snippet that has no imports fails |
| Rewrite.ReactPropTypesExample | packages/imports-visitor/src/rewrite.test.js:18-29 | `import React, { PropTypes } from "react"` rewritten from `{ PropTypes } from "react"` to default `prop-types` gives the two expected declarations |
| ParseRequest.ArgsOf | src/server/parseRequest.js:9 | a missing or null argument list reads as empty |
| ParseRequest.ApplyCall | src/server/parseRequest.js:12 | the generated call wraps the function string in parentheses and applies it to the serialised arguments |
| ParseRequest.Parse | src/server/parseRequest.js:4-23 | a request fails exactly when neither field is a string; a function string wins and serialises the arguments into the code, leaving none alongside; otherwise the code string is taken as is and the arguments are passed alongside |
| ParseRequest.FunctionStringTakesPrecedence | src/server/parseRequest.js:11-15 | with a function string present, the code string plays no part |
| ParseRequest.NullArgsAreEmpty | src/server/parseRequest.js:9 | a null argument list behaves exactly like an empty one |
| ParseRequest.FunctionStringRecoverable | src/server/parseRequest.js:12 | the function string can be read back out of the generated code |

## Left out

- Parsing and printing: Babel's parser, generator, `babel.transform` and its plugin wrapper (rewrite.js:5-17) are replaced by the abstract `Program`. Rewrite takes already parsed programs.
- Live paths: the path objects that Babel keeps in step with the tree are modelled by edit logs and `Edits.RelocateAll`, not by mutable state.
- The `path` setter (ImportDefinition.js:15-51) is modelled by `Syntax.Valid`: an anchor stands only for a location the setter accepts. The rejection of other node types is not modelled, because no anchor can express one.
- The `flavor` setter (ImportDefinition.js:84-88) always throws; it has no member.
- `inspect` and the constructor do nothing the model can observe.
- Nested scopes: only top-level statements exist. A `require` or `import()` nested in other expressions is a statement holding only dynamic calls, or it is not represented.
- A declaration that mixes `require` declarators with `import()` calls is not representable.
- Rest elements in destructuring patterns are not modelled. The collector (index.js:24-45) would wrap such an element in an `ImportDefinition`, and the `path` setter (ImportDefinition.js:15-35) throws on it, so collecting such a module fails.
- `require()` with no argument is treated like a non-literal argument. The source getter would throw a TypeError there instead, because `arg` is undefined when it calls `arg.isStringLiteral()` (ImportDefinition.js:92-93). Arguments have only two shapes, a string literal or anything else: a literal that is not a string (`require(42)`) is read by the getter as its value (:93-94), and an `import()` argument that is not a literal reads as `undefined` rather than `null` (:115-117); both are a missing source here.
- The "unknown" flavor, and the errors the setters throw for it, cannot arise, because every anchor has one of the four flavors.
- ImportMutation.Remove: removing the only property of a destructuring pattern deletes the whole declaration, even when it has other declarators. This follows ImportDefinition.js:557-566 as written.
- ImportMutation.SetSource: a null source fails with the error alone. The setter forks the binding first (ImportDefinition.js:129) and only then throws from `t.stringLiteral(null)`, so the split it already made is not modelled.
- ImportMutation.SetImportedExport: a missing variable name, export name or source fails with the error alone. The setter has already forked (ImportDefinition.js:245) when a builder throws on the null, for example `t.identifier(null)`, so that partial split is not modelled.
- ImportMutation.SetKind: on a `require` binding the model gives the result index.test.js:1284-1336 expects. As written, the conversion at ImportDefinition.js:503-508 goes through the `importedExport` setter's ESM branch and inherits its defect (first Findings row), so a lone `require` binding throws.
- AsWritten.SetImportedExportAsWritten: an error carries no program. As written, the fork at ImportDefinition.js:245, and on the failing lookup the removal at :296, have already changed the tree when a builder throws on a null or :297 reads past the last statement; those partial changes are not modelled.
- ImportMutation.SetImportedExport: the ESM branch builds a declaration without a kind flag, so the entity becomes a value import, as the code does.
- Rewrite.RewriteFromTracks: an entity whose syntax an earlier replacement destroyed is skipped, where Babel would operate on a detached path.
- ParseRequest.Parse: JSON serialisation is a parameter, and a field that is not a string is read as absent.
- The run-on-server HTTP stack, the compile and execute steps, the client, the macro and the CLI are outside this model.

## Findings

| source | as written | input that shows it | evidently intended | confidence | as-written member | corrected member |
|---|---|---|---|---|---|---|
| packages/imports-visitor/src/ImportDefinition.js:289-297 | the ESM declaration is inserted only when `flavor === ""`, which never holds; the entity is then pointed at the next statement's first specifier | `import foo from "foo"`, importedExport set to `{ name: "*", isImportedAsCJS: false }` | the new declaration is inserted after the statement and the entity moves to it (index.test.js:856-860, rewrite.test.js:18-29) | high, not executed | AsWritten.SetImportedExportAsWritten | ImportMutation.SetImportedExport |
| packages/imports-visitor/src/ImportDefinition.js:503-508 | the kind setter converts a `require` binding by clearing `isImportedAsCJS` on the object the `importedExport` getter returns, whose setter reruns the `importedExport` setter; the ESM branch of that setter then inserts nothing (first row) | `const foo = require("bar")`, kind set to `type` | the binding becomes `import type * as foo from "bar"` (index.test.js:1284-1336) | high, not executed | AsWritten.RequireKindThrows | ImportMutation.SetKind |
| packages/imports-visitor/src/ImportDefinition.js:613-625 | `fork` builds the new declaration without the original's `importKind`/`exportKind` | `import type { foo, bar } from "bar"`, forking `foo` | the forked binding stays a type import | medium, not executed | AsWritten.SoloStmtAsWritten | ImportMutation.SoloStmt |
| packages/imports-visitor/src/ImportDefinition.js:516-534 | the kind setter writes only the declaration's flag, but the getter at :445 prefers the specifier's own flag | `import { type Foo } from "foo"`, kind set to `value` | the entity then reports the assigned kind | medium, not executed | AsWritten.RetypedAsWritten | ImportMutation.SetKind |
| packages/imports-visitor/src/ImportDefinition.js:409-414 | renaming a named import specifier rebuilds it without its own `importKind` | `import { type Foo } from "foo"`, variableName set to `Bar` | renaming keeps the kind | medium, not executed | AsWritten.RenameSpecAsWritten | ImportMutation.SetVariableName |
| packages/imports-visitor/src/ImportDefinition.js:262-286 | re-export specifiers are built with the variable name as `local` and the requested export as `exported`, while the getters read `local` as the export (:185) and `exported` as the variable name (:356). The defect is latent behind the first row: because of the guard at :289, the specifier built is never inserted | `export { foo } from "foo"`, importedExport set to `{ name: "bar", isImportedAsCJS: false }`, once the guard at :289 is corrected. As written, the setter fails on this input before the specifier matters | the entity takes export `bar` and still binds `foo` | medium, not executed | AsWritten.ReExportSpecAsWritten | ImportMutation.SetImportedExport |

=== FILE: as_written.dfy ===
/**
 The five places where the mutators, as written, do something other than
 what their tests and documentation evidently intend. Each is modelled here
 as written up to the point where the code throws, next to a concrete input
 on which it differs from the corrected definition that the rest of the
 model uses. A path that throws yields only the error: the changes the code
 has already made to the tree by then (a fork, a removal) are not kept. The
 kind setter converts a `require` binding through the first defect, which
 it therefore shares. The fifth is latent:
 the re-export specifier it builds wrongly is never inserted, because of the
 first, and would surface only once the first is corrected.
 */
module AsWritten {
  import opened Wrappers
  import opened Syntax
  import opened ImportDefinition
  import opened Edits
  import opened ImportMutation

  // ------------------------------------------------------------------------
  // 1. The `importedExport` setter never inserts the ESM declaration it builds.

  /**
   The `importedExport` setter as written: in the ESM branch the insertion is
   guarded by a flavor test that never holds, so the old binding is removed
   and the entity is pointed at the first specifier of whatever statement
   followed it (an error when there is none). The CJS branch is the
   corrected one.
   */
  function SetImportedExportAsWritten(p: Program, a: Anchor, name: Option<string>, cjs: bool): (r: Result<Outcome, MutationError>)
    requires Valid(p, a)
    ensures cjs ==> r == SetImportedExport(p, a, name, cjs)
    ensures !cjs && r.Ok? ==> Valid(r.value.prog, r.value.anchor)
    ensures !cjs && r.Ok? && ImportedExport(name, cjs) != ViewOf(p, a).importedExport ==>
      r.value.anchor.loc == SpecAt(0) && |r.value.prog| <= |p|
  {
    if cjs then SetImportedExport(p, a, name, cjs)
    else
      var s := p[a.stmt];
      if ImportedExport(name, cjs) == ImportedExportOf(s, a.loc) then Ok(Outcome(p, a, []))
      else if a.loc.CallAt? || (a.loc.Whole? && s.ImportDecl?) then
        Err(Unsupported(ImportedExportAttr, FlavorOf(s, a.loc), Source(s, a.loc)))
      else
        var f :- Fork(p, a, false);
        var q, b := f.prog, f.anchor;
        if VariableName(q[b.stmt], b.loc).None? || name.None? then Err(BuildFailure)
        else
          var next := b.stmt + 1;
          var rm := Remove(q, b).value;
          if next < |q| && (q[next].ImportDecl? || q[next].ExportFrom?) && |q[next].specs| > 0 then
            var c := Anchor(LandingIndex(q, b), SpecAt(0));
            assert rm.prog[c.stmt] == q[next];
            Ok(Outcome(rm.prog, c, f.log + rm.log))
          else Err(InvalidPath)
  }

  /**
   `import foo from "foo"` set to the namespace export: as written it throws
   (after removing the binding, which the error does not show); corrected it
   becomes `import * as foo from "foo"`.
   */
  lemma LoneImportThrows()
    ensures var p := [ImportDecl(None, [DefaultSpec("foo", None)], "foo")];
      && SetImportedExportAsWritten(p, Anchor(0, SpecAt(0)), Some("*"), false) == Err(InvalidPath)
      && SetImportedExport(p, Anchor(0, SpecAt(0)), Some("*"), false).Ok?
      && SetImportedExport(p, Anchor(0, SpecAt(0)), Some("*"), false).value.prog
         == [ImportDecl(None, [NamespaceSpec("foo", None)], "foo")]
  {
    var p := [ImportDecl(None, [DefaultSpec("foo", None)], "foo")];
    var a := Anchor(0, SpecAt(0));
    var t := ImportDecl(None, [NamespaceSpec("foo", None)], "foo");
    assert Rebound(p[0], a.loc, Some("*"), false) == Ok(t);
    assert Without(Insert(p, 1, t), 0) == [t];
  }

  /**
   With a statement after it, the same assignment deletes `foo` and leaves
   the entity reporting `bar`, the binding of the next statement.
   */
  lemma ImportRetargetsToNextStatement()
    ensures var p := [ImportDecl(None, [DefaultSpec("foo", None)], "foo"),
                      ImportDecl(None, [DefaultSpec("bar", None)], "bar")];
      var r := SetImportedExportAsWritten(p, Anchor(0, SpecAt(0)), Some("*"), false);
      && r.Ok?
      && r.value.prog == [p[1]]
      && ViewOf(r.value.prog, r.value.anchor).variableName == Some("bar")
  {
    var p := [ImportDecl(None, [DefaultSpec("foo", None)], "foo"),
              ImportDecl(None, [DefaultSpec("bar", None)], "bar")];
    assert Without(p, 0) == [p[1]];
  }

  /**
   The kind setter turns a `require` binding into an import by assigning its
   imported export with the CJS flag cleared, which runs the ESM branch above.
   For `const foo = require("bar")` set to `type` that branch throws as
   written, while the corrected setter gives `import type * as foo from "bar"`.
   */
  lemma RequireKindThrows()
    ensures var p := [VarDecl(Const, [Declarator(PId("foo"), Require(Lit("bar")))])];
      var a := Anchor(0, DeclaratorAt(0));
      && ViewOf(p, a).importedExport == ImportedExport(Some("*"), true)
      && SetImportedExportAsWritten(p, a, ViewOf(p, a).importedExport.name, false) == Err(InvalidPath)
      && SetKind(p, a, "type").Ok?
      && SetKind(p, a, "type").value.prog == [ImportDecl(Some(Type), [NamespaceSpec("foo", None)], "bar")]
  {
    var p := [VarDecl(Const, [Declarator(PId("foo"), Require(Lit("bar")))])];
    var t := ImportDecl(None, [NamespaceSpec("foo", None)], "bar");
    assert Rebound(p[0], DeclaratorAt(0), Some("*"), false) == Ok(t);
    assert Without(Insert(p, 1, t), 0) == [t];
    assert Retyped(t, SpecAt(0), Type) == ImportDecl(Some(Type), [NamespaceSpec("foo", None)], "bar");
    assert [t][0 := Retyped(t, SpecAt(0), Type)] == [ImportDecl(Some(Type), [NamespaceSpec("foo", None)], "bar")];
  }

  // ------------------------------------------------------------------------
  // 2. `fork` drops the declaration's kind.

  /** The one-binding statement `fork` builds, as written: a specifier's new declaration carries no kind flag. */
  function SoloStmtAsWritten(s: Stmt, l: Loc): (r: Result<Stmt, MutationError>)
    requires ValidLoc(s, l) && (l.SpecAt? || l.PropAt?)
    ensures r.Ok? ==> ValidLoc(r.value, FirstLoc(l))
    ensures r.Ok? && l.SpecAt? ==>
      ViewAt(r.value, FirstLoc(l)) == ViewAt(s, l).(kind := if s.specs[l.j].flag.Some? then s.specs[l.j].flag.value else Value)
  {
    match l
    case SpecAt(j) =>
      if s.ImportDecl? then Ok(ImportDecl(None, [s.specs[j]], s.src)) else Ok(ExportFrom(None, [s.specs[j]], s.src))
    case PropAt(_, _) => SoloStmt(s, l)
  }

  /** Forking `foo` out of `import type { foo, bar } from "bar"` yields a value import as written. */
  lemma ForkDropsDeclarationKind()
    ensures var s := ImportDecl(Some(Type), [NamedSpec("foo", "foo", None), NamedSpec("bar", "bar", None)], "bar");
      && KindOf(s, SpecAt(0)) == Type
      && KindOf(SoloStmtAsWritten(s, SpecAt(0)).value, SpecAt(0)) == Value
      && KindOf(SoloStmt(s, SpecAt(0)).value, SpecAt(0)) == Type
  {
  }

  // ------------------------------------------------------------------------
  // 3. The `kind` setter leaves a specifier's own flag in charge.

  /** The kind setter's write, as written: only the declaration's flag is set. */
  function RetypedAsWritten(s: Stmt, l: Loc, k: Kind): (r: Stmt)
    requires ValidLoc(s, l) && (l.SpecAt? || (l.Whole? && s.ExportFrom?))
    ensures ValidLoc(r, l)
    ensures l.SpecAt? && s.specs[l.j].flag.Some? ==> KindOf(r, l) == KindOf(s, l)
    ensures l.SpecAt? && s.specs[l.j].flag.None? ==> KindOf(r, l) == k
  {
    if s.ImportDecl? then ImportDecl(Some(k), s.specs, s.src) else ExportFrom(Some(k), s.specs, s.src)
  }

  /** `import { type Foo } from "foo"` set to value stays a type import as written. */
  lemma KindSetterIgnoredUnderSpecifierFlag()
    ensures var s := ImportDecl(None, [NamedSpec("Foo", "Foo", Some(Type))], "foo");
      && KindOf(RetypedAsWritten(s, SpecAt(0), Value), SpecAt(0)) == Type
      && KindOf(Retyped(s, SpecAt(0), Value), SpecAt(0)) == Value
  {
  }

  // ------------------------------------------------------------------------
  // 4. Renaming a named import specifier drops its own kind.

  /** The renamed specifier, as written: a named import specifier is rebuilt without its kind flag. */
  function RenameSpecAsWritten(s: Stmt, j: nat, n: string): (r: Spec)
    requires ValidLoc(s, SpecAt(j))
    ensures r.name == n
    ensures s.ImportDecl? && s.specs[j].NamedSpec? ==> r == NamedSpec(s.specs[j].remote, n, None)
    ensures !(s.ImportDecl? && s.specs[j].NamedSpec?) ==> r == RenameSpec(s.specs[j], n)
  {
    var sp := s.specs[j];
    if s.ImportDecl? && sp.NamedSpec? then NamedSpec(sp.remote, n, None) else RenameSpec(sp, n)
  }

  /** Renaming `Foo` in `import { type Foo } from "foo"` turns it into a value import as written. */
  lemma RenameDropsSpecifierKind()
    ensures var s := ImportDecl(None, [NamedSpec("Foo", "Foo", Some(Type))], "foo");
      && KindOf(ImportDecl(None, [RenameSpecAsWritten(s, 0, "Bar")], "foo"), SpecAt(0)) == Value
      && KindOf(Renamed(s, SpecAt(0), "Bar").value, SpecAt(0)) == Type
  {
  }

  // ------------------------------------------------------------------------
  // 5. Re-export specifiers are built with their two names swapped (latent
  //    behind 1).

  /**
   The specifier the `importedExport` setter builds on a re-export, as
   written: the variable name is passed as the specifier's `local` (the
   export taken) and the requested export as its `exported` (the name
   bound). As written the setter then discards it (finding 1).
   */
  function ReExportSpecAsWritten(v: string, name: string): (r: Spec)
    ensures name != "*" && name != "default" ==> r == NamedSpec(v, name, None)
    ensures name == "*" ==> r.NamespaceSpec? && r.name == v
  {
    if name == "*" then NamespaceSpec(v, None)
    else if name == "default" then DefaultSpec(v, None)
    else NamedSpec(v, name, None)
  }

  /**
   For `export { foo } from "foo"` re-pointed at export `bar`, the statement
   built as written would take `foo` and bind `bar`. The setter as written
   never inserts it: on this input it removes the old binding, finds no
   statement after it and fails. The corrected setter takes `bar` and still
   binds `foo`.
   */
  lemma ReExportNamesSwapped()
    ensures var t := ExportFrom(None, [ReExportSpecAsWritten("foo", "bar")], "foo");
      && ImportedExportOf(t, SpecAt(0)) == ImportedExport(Some("foo"), false)
      && VariableName(t, SpecAt(0)) == Some("bar")
    ensures var p := [ExportFrom(None, [NamedSpec("foo", "foo", None)], "foo")];
      SetImportedExportAsWritten(p, Anchor(0, SpecAt(0)), Some("bar"), false).Err?
    ensures var p := [ExportFrom(None, [NamedSpec("foo", "foo", None)], "foo")];
      var r := SetImportedExport(p, Anchor(0, SpecAt(0)), Some("bar"), false);
      && r.Ok?
      && ViewOf(r.value.prog, r.value.anchor).importedExport == ImportedExport(Some("bar"), false)
      && ViewOf(r.value.prog, r.value.anchor).variableName == Some("foo")
  {
    var p := [ExportFrom(None, [NamedSpec("foo", "foo", None)], "foo")];
    assert Rebound(p[0], SpecAt(0), Some("bar"), false).Ok?;
  }
}

=== FILE: edits.dfy ===
/**
 Structural edits of a program and how they move the anchors of the other
 entities. The syntax-tree adapter keeps every live path's list index up to
 date when a sibling is inserted or removed; `Relocate` is that bookkeeping
 for index-path anchors. `Keeps(p, q, log)` says that every entity of `p`
 that survives the edits in `log` still reports the same view in `q`.
 */
module Edits {
  import opened Wrappers
  import opened Syntax
  import opened ImportDefinition

  datatype Edit =
    | StmtInserted(at: nat)     // a statement was inserted at index `at`
    | StmtDeleted(at: nat)      // the statement at index `at` was deleted
    | MemberDeleted(gone: Anchor) // a specifier, declarator or property was deleted from its list
    | Touched(entity: Anchor)   // the entity at this anchor was rewritten in place

  /** Where location `l` of a statement ends up after member `gone` of that statement is deleted. */
  function ShiftLoc(l: Loc, gone: Loc): Option<Loc> {
    match gone
    case SpecAt(j) =>
      if !l.SpecAt? then Some(l)
      else if l.j == j then None
      else if l.j > j then Some(SpecAt(l.j - 1))
      else Some(l)
    case DeclaratorAt(d) =>
      (match l
       case DeclaratorAt(e) =>
         if e == d then None else if e > d then Some(DeclaratorAt(e - 1)) else Some(l)
       case PropAt(e, k) =>
         if e == d then None else if e > d then Some(PropAt(e - 1, k)) else Some(l)
       case _ => Some(l))
    case PropAt(d, k) =>
      if !l.PropAt? || l.d != d then Some(l)
      else if l.k == k then None
      else if l.k > k then Some(PropAt(d, l.k - 1))
      else Some(l)
    case _ => Some(l)
  }

  /** Where anchor `b` ends up after one edit; `None` when its location is gone. */
  function Relocate(b: Anchor, e: Edit): Option<Anchor> {
    match e
    case StmtInserted(at) =>
      Some(if b.stmt >= at then Anchor(b.stmt + 1, b.loc) else b)
    case StmtDeleted(at) =>
      if b.stmt == at then None
      else if b.stmt > at then Some(Anchor(b.stmt - 1, b.loc))
      else Some(b)
    case MemberDeleted(gone) =>
      if b.stmt != gone.stmt then Some(b)
      else
        (match ShiftLoc(b.loc, gone.loc)
         case None => None
         case Some(l) => Some(Anchor(b.stmt, l)))
    case Touched(entity) => if b == entity then None else Some(b)
  }

  function RelocateAll(b: Anchor, log: seq<Edit>): Option<Anchor>
    decreases |log|
  {
    if |log| == 0 then Some(b)
    else
      match Relocate(b, log[0])
      case None => None
      case Some(b') => RelocateAll(b', log[1..])
  }

  ghost predicate Keeps(p: Program, q: Program, log: seq<Edit>) {
    forall b | Valid(p, b) && RelocateAll(b, log).Some? ::
      Valid(q, RelocateAll(b, log).value) && ViewOf(q, RelocateAll(b, log).value) == ViewOf(p, b)
  }

  /** Every entity of `p` other than the one at `a` is still tracked through `log`. */
  ghost predicate TracksOthers(p: Program, log: seq<Edit>, a: Anchor) {
    forall b | Valid(p, b) && b != a :: RelocateAll(b, log).Some?
  }

  /**
   The edits in `log` moved the entity at `a` to `a2`: no other entity of
   `p` lands on `a2`, and one lands in the statement of `a2` only when it
   shared the statement of `a`.
   */
  ghost predicate Separated(p: Program, log: seq<Edit>, a: Anchor, a2: Anchor) {
    forall b | Valid(p, b) && b != a && RelocateAll(b, log).Some? ::
      RelocateAll(b, log).value != a2 && (RelocateAll(b, log).value.stmt == a2.stmt ==> b.stmt == a.stmt)
  }

  /** Relocating through two logs in a row is relocating through their concatenation. */
  lemma {:induction false} RelocateAllConcat(b: Anchor, l1: seq<Edit>, l2: seq<Edit>)
    ensures RelocateAll(b, l1 + l2) ==
            (match RelocateAll(b, l1) case None => None case Some(c) => RelocateAll(c, l2))
    decreases |l1|
  {
    if |l1| == 0 {
      assert l1 + l2 == l2;
    } else {
      assert (l1 + l2)[0] == l1[0];
      assert (l1 + l2)[1..] == l1[1..] + l2;
      match Relocate(b, l1[0])
      case None =>
      case Some(c) => RelocateAllConcat(c, l1[1..], l2);
    }
  }

  /** Preservation composes along a sequence of edits. */
  lemma KeepsConcat(p: Program, q: Program, r: Program, l1: seq<Edit>, l2: seq<Edit>)
    requires Keeps(p, q, l1) && Keeps(q, r, l2)
    ensures Keeps(p, r, l1 + l2)
  {
    forall b | Valid(p, b) && RelocateAll(b, l1 + l2).Some?
      ensures Valid(r, RelocateAll(b, l1 + l2).value)
      ensures ViewOf(r, RelocateAll(b, l1 + l2).value) == ViewOf(p, b)
    {
      RelocateAllConcat(b, l1, l2);
      var c := RelocateAll(b, l1).value;
      assert Valid(q, c) && ViewOf(q, c) == ViewOf(p, b);
    }
  }

  /** An entity followed from `a` to `a1` and then to `a2` keeps the others apart from it throughout. */
  lemma SeparatedConcat(p: Program, q: Program, l1: seq<Edit>, l2: seq<Edit>, a: Anchor, a1: Anchor, a2: Anchor)
    requires Keeps(p, q, l1) && Separated(p, l1, a, a1) && Separated(q, l2, a1, a2)
    ensures Separated(p, l1 + l2, a, a2)
  {
    forall b | Valid(p, b) && b != a && RelocateAll(b, l1 + l2).Some?
      ensures RelocateAll(b, l1 + l2).value != a2
      ensures RelocateAll(b, l1 + l2).value.stmt == a2.stmt ==> b.stmt == a.stmt
    {
      RelocateAllConcat(b, l1, l2);
      var c := RelocateAll(b, l1).value;
      assert Valid(q, c) && c != a1;
    }
  }

  /** Tracking every other entity composes, as long as none was moved onto the entity's own anchor. */
  lemma TracksOthersConcat(p: Program, q: Program, l1: seq<Edit>, l2: seq<Edit>, a: Anchor, a1: Anchor)
    requires Keeps(p, q, l1) && TracksOthers(p, l1, a) && Separated(p, l1, a, a1) && TracksOthers(q, l2, a1)
    ensures TracksOthers(p, l1 + l2, a)
  {
    forall b | Valid(p, b) && b != a ensures RelocateAll(b, l1 + l2).Some? {
      RelocateAllConcat(b, l1, l2);
      var c := RelocateAll(b, l1).value;
      assert Valid(q, c) && c != a1;
    }
  }

  lemma KeepsNothing(p: Program, a: Anchor)
    ensures Keeps(p, p, []) && TracksOthers(p, [], a) && Separated(p, [], a, a)
  {
  }

  lemma SingleEdit(b: Anchor, e: Edit)
    ensures RelocateAll(b, [e]) == Relocate(b, e)
  {
    assert [e][1..] == [];
  }

  /** Inserting a statement leaves every entity's view intact; those at or after it move down by one. */
  lemma InsertKeeps(p: Program, at: nat, s: Stmt)
    requires at <= |p|
    ensures Keeps(p, Insert(p, at, s), [StmtInserted(at)])
    ensures forall b | Valid(p, b) ::
      RelocateAll(b, [StmtInserted(at)]) == Some(if b.stmt >= at then Anchor(b.stmt + 1, b.loc) else b)
  {
    var q := Insert(p, at, s);
    forall b | Valid(p, b)
      ensures RelocateAll(b, [StmtInserted(at)]) == Some(if b.stmt >= at then Anchor(b.stmt + 1, b.loc) else b)
      ensures Valid(q, RelocateAll(b, [StmtInserted(at)]).value)
      ensures ViewOf(q, RelocateAll(b, [StmtInserted(at)]).value) == ViewOf(p, b)
    {
      SingleEdit(b, StmtInserted(at));
    }
  }

  /**
   Deleting a statement retires exactly the entities it held; those after it
   move up by one, and no surviving view changes.
   */
  lemma DeleteStmtKeeps(p: Program, at: nat)
    requires at < |p|
    ensures Keeps(p, Without(p, at), [StmtDeleted(at)])
    ensures forall b | Valid(p, b) ::
      RelocateAll(b, [StmtDeleted(at)]) == (if b.stmt == at then None else Some(if b.stmt > at then Anchor(b.stmt - 1, b.loc) else b))
  {
    forall b | Valid(p, b)
      ensures RelocateAll(b, [StmtDeleted(at)]) == (if b.stmt == at then None else Some(if b.stmt > at then Anchor(b.stmt - 1, b.loc) else b))
    {
      SingleEdit(b, StmtDeleted(at));
    }
    var q := Without(p, at);
    forall b | Valid(p, b) && RelocateAll(b, [StmtDeleted(at)]).Some?
      ensures Valid(q, RelocateAll(b, [StmtDeleted(at)]).value)
      ensures ViewOf(q, RelocateAll(b, [StmtDeleted(at)]).value) == ViewOf(p, b)
    {
      SingleEdit(b, StmtDeleted(at));
    }
  }

  /** Locations that name one member of a list: a specifier, a declarator or a property. */
  predicate IsMember(l: Loc) {
    l.SpecAt? || l.DeclaratorAt? || l.PropAt?
  }

  /** Statement `s` with the member at `l` taken out of its list. */
  function DeleteMember(s: Stmt, l: Loc): (r: Stmt)
    requires ValidLoc(s, l) && IsMember(l)
  {
    match l
    case SpecAt(j) => s.(specs := Without(s.specs, j))
    case DeclaratorAt(d) => s.(decls := Without(s.decls, d))
    case PropAt(d, k) =>
      var dc := s.decls[d];
      s.(decls := s.decls[d := dc.(id := PObj(Without(dc.id.props, k)))])
  }

  lemma DeleteMemberLocKeeps(s: Stmt, gone: Loc, l: Loc)
    requires ValidLoc(s, gone) && IsMember(gone) && ValidLoc(s, l)
    requires ShiftLoc(l, gone).Some?
    ensures ValidLoc(DeleteMember(s, gone), ShiftLoc(l, gone).value)
    ensures ViewAt(DeleteMember(s, gone), ShiftLoc(l, gone).value) == ViewAt(s, l)
  {
    var t := DeleteMember(s, gone);
    var l' := ShiftLoc(l, gone).value;
    match gone {
      case SpecAt(j) =>
        if l.SpecAt? {
          assert t.specs[l'.j] == s.specs[l.j];
        }
      case DeclaratorAt(d) =>
        match l {
          case DeclaratorAt(e) => assert t.decls[l'.d] == s.decls[e];
          case PropAt(e, k) => assert t.decls[l'.d] == s.decls[e];
          case _ =>
        }
      case PropAt(d, k) =>
        match l {
          case PropAt(e, k2) =>
            if e == d {
              assert t.decls[d].id.props[l'.k] == s.decls[d].id.props[k2];
            } else {
              assert t.decls[e] == s.decls[e];
            }
          case _ =>
        }
    }
  }

  /**
   Deleting one member retires only that member's anchor: every other entity
   stays in its statement (later siblings move up by one) with its view.
   */
  lemma DeleteMemberKeeps(p: Program, a: Anchor)
    requires Valid(p, a) && IsMember(a.loc)
    ensures Keeps(p, p[a.stmt := DeleteMember(p[a.stmt], a.loc)], [MemberDeleted(a)])
    ensures forall b | Valid(p, b) :: RelocateAll(b, [MemberDeleted(a)]).None? <==> b == a
    ensures forall b | Valid(p, b) && b != a :: RelocateAll(b, [MemberDeleted(a)]).value.stmt == b.stmt
  {
    var q := p[a.stmt := DeleteMember(p[a.stmt], a.loc)];
    forall b | Valid(p, b)
      ensures RelocateAll(b, [MemberDeleted(a)]).None? <==> b == a
      ensures b != a ==> RelocateAll(b, [MemberDeleted(a)]).value.stmt == b.stmt
    {
      SingleEdit(b, MemberDeleted(a));
      if b.stmt == a.stmt {
        ShiftLocRetiresOnlyItself(p[a.stmt], a.loc, b.loc);
      }
    }
    forall b | Valid(p, b) && RelocateAll(b, [MemberDeleted(a)]).Some?
      ensures Valid(q, RelocateAll(b, [MemberDeleted(a)]).value)
      ensures ViewOf(q, RelocateAll(b, [MemberDeleted(a)]).value) == ViewOf(p, b)
    {
      SingleEdit(b, MemberDeleted(a));
      if b.stmt == a.stmt {
        DeleteMemberLocKeeps(p[a.stmt], a.loc, b.loc);
      }
    }
  }

  /** Of two valid members of one statement, deleting one retires the other only when they are the same. */
  lemma ShiftLocRetiresOnlyItself(s: Stmt, gone: Loc, l: Loc)
    requires ValidLoc(s, gone) && IsMember(gone) && ValidLoc(s, l)
    ensures ShiftLoc(l, gone).None? <==> l == gone
  {
  }

  /** `t` agrees with `s` on every location other than `l`. */
  ghost predicate SameElsewhere(s: Stmt, t: Stmt, l: Loc) {
    forall l' | ValidLoc(s, l') && l' != l :: ValidLoc(t, l') && ViewAt(t, l') == ViewAt(s, l')
  }

  /** Rewriting one entity in place keeps every other entity, where it was and with its view. */
  lemma TouchKeeps(p: Program, a: Anchor, t: Stmt)
    requires Valid(p, a) && SameElsewhere(p[a.stmt], t, a.loc)
    ensures Keeps(p, p[a.stmt := t], [Touched(a)])
    ensures forall b | Valid(p, b) && b != a :: RelocateAll(b, [Touched(a)]) == Some(b)
  {
    forall b | Valid(p, b) && b != a ensures RelocateAll(b, [Touched(a)]) == Some(b) {
      SingleEdit(b, Touched(a));
    }
    var q := p[a.stmt := t];
    forall b | Valid(p, b) && RelocateAll(b, [Touched(a)]).Some?
      ensures Valid(q, RelocateAll(b, [Touched(a)]).value)
      ensures ViewOf(q, RelocateAll(b, [Touched(a)]).value) == ViewOf(p, b)
    {
      SingleEdit(b, Touched(a));
    }
  }

  /** One edit never moves two entities onto one anchor, and never merges or splits statements. */
  lemma RelocateSeparates(b1: Anchor, b2: Anchor, e: Edit)
    requires Relocate(b1, e).Some? && Relocate(b2, e).Some?
    ensures Relocate(b1, e).value.stmt == Relocate(b2, e).value.stmt <==> b1.stmt == b2.stmt
    ensures Relocate(b1, e) == Relocate(b2, e) ==> b1 == b2
  {
  }

  /** Relocation through a whole log keeps distinct entities distinct and statement-mates exactly the same. */
  lemma {:induction false} RelocateAllSeparates(b1: Anchor, b2: Anchor, log: seq<Edit>)
    requires RelocateAll(b1, log).Some? && RelocateAll(b2, log).Some?
    ensures RelocateAll(b1, log).value.stmt == RelocateAll(b2, log).value.stmt <==> b1.stmt == b2.stmt
    ensures RelocateAll(b1, log) == RelocateAll(b2, log) ==> b1 == b2
    decreases |log|
  {
    if |log| > 0 {
      RelocateSeparates(b1, b2, log[0]);
      RelocateAllSeparates(Relocate(b1, log[0]).value, Relocate(b2, log[0]).value, log[1..]);
    }
  }
}

=== FILE: import_definition.dfy ===
/**
 The read side of an import entity: the logical view (source, variable name,
 imported export, kind, flavor) of the syntax location an anchor points at.
 Every getter is a function of the anchored statement and the location inside
 it, so moving a statement within the program never changes what it reports.
 */
module ImportDefinition {
  import opened Wrappers
  import opened Syntax

  /** Which statement family an anchor belongs to. */
  datatype Flavor = RequireFlavor | DynamicImport | EsmImport | EsmReexport

  /** The `importedExport` pair: which export is taken, and whether through `require`. */
  datatype ImportedExport = ImportedExport(name: Option<string>, cjs: bool)

  /** Everything an entity reports about itself. */
  datatype View = View(
    source: Option<string>,
    variableName: Option<string>,
    importedExport: ImportedExport,
    kind: Kind,
    flavor: Flavor)

  function ArgSource(arg: Arg): Option<string> {
    match arg
    case Lit(v) => Some(v)
    case NonLit => None
  }

  function FlavorOf(s: Stmt, l: Loc): (r: Flavor)
    requires ValidLoc(s, l)
    ensures r == EsmImport <==> s.ImportDecl?
    ensures r == EsmReexport <==> s.ExportFrom? || s.ExportAll?
    ensures r == RequireFlavor <==> s.VarDecl?
    ensures r == DynamicImport <==> s.ExprStmt?
  {
    match l
    case DeclaratorAt(_) => RequireFlavor
    case PropAt(_, _) => RequireFlavor
    case CallAt(_) => DynamicImport
    case SpecAt(_) => if s.ImportDecl? then EsmImport else EsmReexport
    case Whole => if s.ImportDecl? then EsmImport else EsmReexport
  }

  function IsDynamicImport(s: Stmt, l: Loc): (r: bool)
    requires ValidLoc(s, l)
    ensures r <==> FlavorOf(s, l) == DynamicImport
  {
    l.CallAt?
  }

  /** The module a binding comes from; absent when a call's argument is not a literal. */
  function Source(s: Stmt, l: Loc): (r: Option<string>)
    requires ValidLoc(s, l)
    ensures FlavorOf(s, l) in {EsmImport, EsmReexport} ==> r == Some(s.src)
    ensures r.None? ==> FlavorOf(s, l) in {RequireFlavor, DynamicImport}
  {
    match l
    case SpecAt(_) => Some(s.src)
    case Whole => Some(s.src)
    case DeclaratorAt(d) => ArgSource(s.decls[d].init.arg)
    case PropAt(d, _) => ArgSource(s.decls[d].init.arg)
    case CallAt(c) => ArgSource(s.calls[c])
  }

  /** The local binding introduced; absent for bare, `export *`, `export {}` and dynamic imports. */
  function VariableName(s: Stmt, l: Loc): (r: Option<string>)
    requires ValidLoc(s, l)
    ensures l.SpecAt? ==> r.Some?
    ensures l.Whole? || l.CallAt? ==> r.None?
    ensures r.Some? ==> FlavorOf(s, l) != DynamicImport
  {
    match l
    case SpecAt(j) => Some(s.specs[j].name)
    case DeclaratorAt(d) =>
      if s.decls[d].id.PId? then Some(s.decls[d].id.name) else None
    case PropAt(d, k) =>
      var pr := s.decls[d].id.props[k];
      if pr.value.TargetId? then Some(pr.value.name) else None
    case Whole => None
    case CallAt(_) => None
  }

  /**
   The export taken and how. The pair is CJS-shaped exactly for `require`
   bindings, and its name is absent only there, when the binding's target
   is not an identifier.
   */
  function ImportedExportOf(s: Stmt, l: Loc): (r: ImportedExport)
    requires ValidLoc(s, l)
    ensures r.cjs <==> FlavorOf(s, l) == RequireFlavor
    ensures r.name.None? ==> r.cjs
    ensures l.Whole? || l.CallAt? ==> r == ImportedExport(Some("*"), false)
  {
    match l
    case SpecAt(j) =>
      (match s.specs[j]
       case DefaultSpec(_, _) => ImportedExport(Some("default"), false)
       case NamespaceSpec(_, _) => ImportedExport(Some("*"), false)
       case NamedSpec(remote, _, _) => ImportedExport(Some(remote), false))
    case Whole => ImportedExport(Some("*"), false)
    case DeclaratorAt(d) =>
      if s.decls[d].id.PId? then ImportedExport(Some("*"), true) else ImportedExport(None, true)
    case PropAt(d, k) =>
      var key := s.decls[d].id.props[k].key;
      if key.KeyId? then ImportedExport(Some(key.name), true) else ImportedExport(None, true)
    case CallAt(_) => ImportedExport(Some("*"), false)
  }

  /** The specifier's own flag if any, else the declaration's, else `value`. */
  function KindOf(s: Stmt, l: Loc): (r: Kind)
    requires ValidLoc(s, l)
    ensures FlavorOf(s, l) in {RequireFlavor, DynamicImport} ==> r == Value
    ensures l.SpecAt? && s.specs[l.j].flag.Some? ==> r == s.specs[l.j].flag.value
    ensures l.SpecAt? && s.specs[l.j].flag.None? && s.flag.Some? ==> r == s.flag.value
  {
    match l
    case SpecAt(j) =>
      if s.specs[j].flag.Some? then s.specs[j].flag.value
      else if s.flag.Some? then s.flag.value
      else Value
    case Whole => if s.flag.Some? then s.flag.value else Value
    case _ => Value
  }

  /** How many bindings share this binding's list (`_getImportSiblings`). */
  function ImportSiblings(s: Stmt, l: Loc): (r: nat)
    requires ValidLoc(s, l)
    ensures r >= 1
    ensures !(l.SpecAt? || l.PropAt?) ==> r == 1
  {
    match l
    case SpecAt(_) => |s.specs|
    case PropAt(d, _) => |s.decls[d].id.props|
    case _ => 1
  }

  function ViewAt(s: Stmt, l: Loc): View
    requires ValidLoc(s, l)
  {
    View(Source(s, l), VariableName(s, l), ImportedExportOf(s, l), KindOf(s, l), FlavorOf(s, l))
  }

  /** The view of the entity anchored at `a` in `p`. */
  function ViewOf(p: Program, a: Anchor): View
    requires Valid(p, a)
  {
    ViewAt(p[a.stmt], a.loc)
  }
}

=== FILE: import_mutation.dfy ===
/**
 The write side of an import entity: the `source`, `variableName`,
 `importedExport` and `kind` setters, `remove` and `fork`. Each takes the
 program and the entity's anchor and returns the rewritten program, the
 entity's new anchor and the log of structural edits (so that the other
 entities can be relocated), or the error the setter throws.
 */
module ImportMutation {
  import opened Wrappers
  import opened Syntax
  import opened ImportDefinition
  import opened Edits

  /** The property or operation a failed mutation attempted. */
  datatype Attr = SourceAttr | VariableNameAttr | ImportedExportAttr | KindAttr | RemoveOp

  datatype MutationError =
    | Unsupported(attempted: Attr, flavor: Flavor, source: Option<string>)  // not allowed on this flavor
    | InvalidKind(given: string)                                           // kind outside value/type/typeof
    | BuildFailure                                                         // a node builder was handed null
    | InvalidPath                                                          // the entity was pointed at a non-import node

  datatype Outcome = Outcome(prog: Program, anchor: Anchor, log: seq<Edit>)

  datatype Removal = Removal(prog: Program, log: seq<Edit>)

  // ---------------------------------------------------------------- fork

  /** The location of the only binding of a one-binding statement. */
  function FirstLoc(l: Loc): Loc {
    if l.SpecAt? then SpecAt(0) else PropAt(0, 0)
  }

  /**
   The one-binding statement `fork` builds for the member at `l`: a
   declaration of the same family and source holding only that specifier,
   or a `require` declaration with the same keyword destructuring only that
   property. The declaration keeps its kind flag (the source does not; see
   the findings in README.md).
   */
  function SoloStmt(s: Stmt, l: Loc): (r: Result<Stmt, MutationError>)
    requires ValidLoc(s, l) && (l.SpecAt? || l.PropAt?)
    ensures r.Err? <==> l.PropAt? && Source(s, l).None?
    ensures r.Ok? ==> ValidLoc(r.value, FirstLoc(l)) && ImportSiblings(r.value, FirstLoc(l)) == 1
    ensures r.Ok? ==> ViewAt(r.value, FirstLoc(l)) == ViewAt(s, l)
    ensures r.Ok? && s.VarDecl? ==> r.value.VarDecl? && r.value.keyword == s.keyword
  {
    match l
    case SpecAt(j) => Ok(s.(specs := [s.specs[j]]))
    case PropAt(d, k) =>
      match Source(s, l)
      case None => Err(BuildFailure)
      case Some(v) => Ok(VarDecl(s.keyword, [Declarator(PObj([s.decls[d].id.props[k]]), Require(Lit(v)))]))
  }

  /**
   Splits the binding at `a` out of a multi-binding statement into a new
   statement of its own, placed right after (or, with `before`, right
   before) the original. A binding that is already alone is left as it is.
   */
  function Fork(p: Program, a: Anchor, before: bool): (r: Result<Outcome, MutationError>)
    requires Valid(p, a)
    ensures ImportSiblings(p[a.stmt], a.loc) == 1 ==> r == Ok(Outcome(p, a, []))
    ensures r.Err? <==> ImportSiblings(p[a.stmt], a.loc) > 1 && a.loc.PropAt? && Source(p[a.stmt], a.loc).None?
    ensures r.Ok? ==> Valid(r.value.prog, r.value.anchor)
    ensures r.Ok? ==> ViewOf(r.value.prog, r.value.anchor) == ViewOf(p, a)
    ensures r.Ok? ==> ImportSiblings(r.value.prog[r.value.anchor.stmt], r.value.anchor.loc) == 1
    ensures r.Ok? && ImportSiblings(p[a.stmt], a.loc) > 1 ==>
      var q, i := r.value.prog, a.stmt;
      && |q| == |p| + 1
      && r.value.anchor.stmt == (if before then i else i + 1)
      && q[if before then i + 1 else i] == DeleteMember(p[i], a.loc)
      && q[..i] == p[..i] && q[i + 2..] == p[i + 1..]
      && (p[i].VarDecl? ==> q[r.value.anchor.stmt].keyword == p[i].keyword)
  {
    var s := p[a.stmt];
    if ImportSiblings(s, a.loc) == 1 then Ok(Outcome(p, a, []))
    else
      var solo :- SoloStmt(s, a.loc);
      var i := a.stmt;
      var at := if before then i else i + 1;
      var rest := if before then i + 1 else i;
      var q1 := Insert(p, at, solo);
      var q2 := q1[rest := DeleteMember(s, a.loc)];
      assert q2[at] == solo;
      Ok(Outcome(q2, Anchor(at, FirstLoc(a.loc)), [StmtInserted(at), MemberDeleted(Anchor(rest, a.loc))]))
  }

  /**
   Forking keeps every other entity tracked and its view intact; once the
   binding has moved out, none of them shares its new statement.
   */
  lemma ForkKeeps(p: Program, a: Anchor, before: bool)
    requires Valid(p, a) && Fork(p, a, before).Ok?
    ensures Keeps(p, Fork(p, a, before).value.prog, Fork(p, a, before).value.log)
    ensures TracksOthers(p, Fork(p, a, before).value.log, a)
    ensures Separated(p, Fork(p, a, before).value.log, a, Fork(p, a, before).value.anchor)
    ensures ImportSiblings(p[a.stmt], a.loc) > 1 ==> forall b | Valid(p, b) && b != a ::
      && RelocateAll(b, Fork(p, a, before).value.log).Some?
      && RelocateAll(b, Fork(p, a, before).value.log).value.stmt != Fork(p, a, before).value.anchor.stmt
  {
    var s := p[a.stmt];
    if ImportSiblings(s, a.loc) == 1 {
      KeepsNothing(p, a);
    } else {
      var solo := SoloStmt(s, a.loc).value;
      var i := a.stmt;
      var at := if before then i else i + 1;
      var rest := if before then i + 1 else i;
      var q1 := Insert(p, at, solo);
      var gone := Anchor(rest, a.loc);
      InsertKeeps(p, at, solo);
      assert q1[rest] == s;
      DeleteMemberKeeps(q1, gone);
      KeepsConcat(p, q1, q1[rest := DeleteMember(s, a.loc)], [StmtInserted(at)], [MemberDeleted(gone)]);
      var log := Fork(p, a, before).value.log;
      assert log == [StmtInserted(at)] + [MemberDeleted(gone)];
      forall b | Valid(p, b) && b != a
        ensures RelocateAll(b, log).Some? && RelocateAll(b, log).value.stmt != at
      {
        RelocateAllConcat(b, [StmtInserted(at)], [MemberDeleted(gone)]);
        var c := RelocateAll(b, [StmtInserted(at)]).value;
        assert Valid(q1, c) && c != gone;
      }
    }
  }

  // -------------------------------------------------------------- remove

  /** The length of the list the member at `l` belongs to. */
  function MemberCount(s: Stmt, l: Loc): nat
    requires ValidLoc(s, l) && IsMember(l)
  {
    match l
    case SpecAt(_) => |s.specs|
    case DeclaratorAt(_) => |s.decls|
    case PropAt(d, _) => |s.decls[d].id.props|
  }

  /** Removing the entity at `l` removes its whole statement: it is a declaration anchor or the sole member of its list. */
  predicate RemovesStatement(s: Stmt, l: Loc)
    requires ValidLoc(s, l) && !l.CallAt?
  {
    l.Whole? || MemberCount(s, l) == 1
  }

  /**
   Whether removing the binding at `a` takes the entity at `b` with it: `b`
   is `a` itself, or `a` is the only property of a destructuring `require`,
   whose whole declaration goes, its other declarators included.
   */
  predicate Retires(p: Program, a: Anchor, b: Anchor)
    requires Valid(p, a)
  {
    b == a || (a.loc.PropAt? && ImportSiblings(p[a.stmt], a.loc) == 1 && b.stmt == a.stmt)
  }

  /** A declaration anchor, or the sole specifier or declarator of its list, is the only entity of its statement. */
  lemma AloneInStatement(s: Stmt, l: Loc, l': Loc)
    requires ValidLoc(s, l) && !l.CallAt? && RemovesStatement(s, l) && !l.PropAt? && ValidLoc(s, l')
    ensures l' == l
  {
  }

  /**
   Deletes the binding at `a`: the whole statement when the anchor is a
   declaration or the only member of its list, otherwise just that member.
   Dynamic imports cannot be removed.
   */
  function Remove(p: Program, a: Anchor): (r: Result<Removal, MutationError>)
    requires Valid(p, a)
    ensures r.Err? <==> a.loc.CallAt?
    ensures r.Err? ==> r.error == Unsupported(RemoveOp, DynamicImport, Source(p[a.stmt], a.loc))
    ensures r.Ok? && RemovesStatement(p[a.stmt], a.loc) ==>
      r.value.prog == Without(p, a.stmt) && r.value.log == [StmtDeleted(a.stmt)]
    ensures r.Ok? && !RemovesStatement(p[a.stmt], a.loc) ==>
      && |r.value.prog| == |p|
      && (forall i :: 0 <= i < |p| && i != a.stmt ==> r.value.prog[i] == p[i])
      && r.value.log == [MemberDeleted(a)]
      && (a.loc.SpecAt? ==> r.value.prog[a.stmt] == p[a.stmt].(specs := Without(p[a.stmt].specs, a.loc.j)))
      && (a.loc.DeclaratorAt? ==> r.value.prog[a.stmt] == VarDecl(p[a.stmt].keyword, Without(p[a.stmt].decls, a.loc.d)))
      && (a.loc.PropAt? ==>
            var s, t, d := p[a.stmt], r.value.prog[a.stmt], a.loc.d;
            && t.VarDecl? && t.keyword == s.keyword && |t.decls| == |s.decls|
            && (forall e :: 0 <= e < |s.decls| && e != d ==> t.decls[e] == s.decls[e])
            && t.decls[d].init == s.decls[d].init
            && t.decls[d].id == PObj(Without(s.decls[d].id.props, a.loc.k)))
  {
    var s := p[a.stmt];
    if a.loc.CallAt? then Err(Unsupported(RemoveOp, DynamicImport, Source(s, a.loc)))
    else if RemovesStatement(s, a.loc) then Ok(Removal(Without(p, a.stmt), [StmtDeleted(a.stmt)]))
    else Ok(Removal(p[a.stmt := DeleteMember(s, a.loc)], [MemberDeleted(a)]))
  }

  /**
   Removing a binding retires exactly the entities `Retires` names; every
   other one keeps its view and its statement, moved up by one when the
   removed statement came before it.
   */
  lemma RemoveKeeps(p: Program, a: Anchor)
    requires Valid(p, a) && Remove(p, a).Ok?
    ensures Keeps(p, Remove(p, a).value.prog, Remove(p, a).value.log)
    ensures forall b | Valid(p, b) :: RelocateAll(b, Remove(p, a).value.log).None? <==> Retires(p, a, b)
    ensures forall b | Valid(p, b) && RelocateAll(b, Remove(p, a).value.log).Some? ::
      RelocateAll(b, Remove(p, a).value.log).value.stmt
        == (if RemovesStatement(p[a.stmt], a.loc) && b.stmt > a.stmt then b.stmt - 1 else b.stmt)
  {
    if RemovesStatement(p[a.stmt], a.loc) {
      DeleteStmtKeeps(p, a.stmt);
      forall b | Valid(p, b) && b.stmt == a.stmt ensures Retires(p, a, b) {
        if !a.loc.PropAt? {
          AloneInStatement(p[a.stmt], a.loc, b.loc);
        }
      }
    } else {
      DeleteMemberKeeps(p, a);
    }
  }

  // -------------------------------------------------------------- source

  /** `s` with the source of the binding at `l` replaced by the literal `v`. */
  function WithSource(s: Stmt, l: Loc, v: string): Stmt
    requires ValidLoc(s, l)
  {
    match l
    case SpecAt(_) => WithDeclSource(s, v)
    case Whole => WithDeclSource(s, v)
    case DeclaratorAt(d) => s.(decls := s.decls[d := s.decls[d].(init := Require(Lit(v)))])
    case PropAt(d, _) => s.(decls := s.decls[d := s.decls[d].(init := Require(Lit(v)))])
    case CallAt(c) => s.(calls := s.calls[c := Lit(v)])
  }

  /** An import or export declaration with its `from` literal replaced. */
  function WithDeclSource(s: Stmt, v: string): Stmt {
    match s
    case ImportDecl(f, specs, _) => ImportDecl(f, specs, v)
    case ExportFrom(f, specs, _) => ExportFrom(f, specs, v)
    case ExportAll(f, _) => ExportAll(f, v)
    case _ => s
  }

  lemma WithSourceElsewhere(s: Stmt, l: Loc, v: string)
    requires ValidLoc(s, l) && ImportSiblings(s, l) == 1
    ensures ValidLoc(WithSource(s, l, v), l)
    ensures ViewAt(WithSource(s, l, v), l) == ViewAt(s, l).(source := Some(v))
    ensures SameElsewhere(s, WithSource(s, l, v), l)
  {
    var t := WithSource(s, l, v);
    forall l' | ValidLoc(s, l') && l' != l
      ensures ValidLoc(t, l') && ViewAt(t, l') == ViewAt(s, l')
    {
      match l' {
        case DeclaratorAt(e) => assert t.decls[e] == s.decls[e];
        case PropAt(e, k) => assert t.decls[e] == s.decls[e];
        case CallAt(c) => assert t.calls[c] == s.calls[c];
        case _ =>
      }
    }
  }

  /**
   The `source` setter: forks first, so that sibling bindings keep the old
   source, then writes the new one. Assigning null makes the string-literal
   builder throw.
   */
  function SetSource(p: Program, a: Anchor, newSource: Option<string>): (r: Result<Outcome, MutationError>)
    requires Valid(p, a)
    ensures r.Err? <==> newSource.None? || Fork(p, a, false).Err?
    ensures r.Ok? ==> Valid(r.value.prog, r.value.anchor)
    ensures r.Ok? ==> ViewOf(r.value.prog, r.value.anchor) == ViewOf(p, a).(source := newSource)
    ensures r.Ok? && ImportSiblings(p[a.stmt], a.loc) > 1 ==>
      var q, i := r.value.prog, a.stmt;
      |q| == |p| + 1 && q[i] == DeleteMember(p[i], a.loc) && r.value.anchor.stmt == i + 1
    ensures r.Ok? ==>
      var f := Fork(p, a, false).value;
      && r.value.anchor == f.anchor && |r.value.prog| == |f.prog|
      && (forall i | 0 <= i < |f.prog| && i != f.anchor.stmt :: r.value.prog[i] == f.prog[i])
      && SameElsewhere(f.prog[f.anchor.stmt], r.value.prog[f.anchor.stmt], f.anchor.loc)
  {
    var f :- Fork(p, a, false);
    if newSource.None? then Err(BuildFailure)
    else
      var b := f.anchor;
      WithSourceElsewhere(f.prog[b.stmt], b.loc, newSource.value);
      Ok(Outcome(f.prog[b.stmt := WithSource(f.prog[b.stmt], b.loc, newSource.value)], b, f.log + [Touched(b)]))
  }

  /** Changing one entity's source keeps every other entity tracked, with its view, and apart from it. */
  lemma SetSourceKeeps(p: Program, a: Anchor, newSource: Option<string>)
    requires Valid(p, a) && SetSource(p, a, newSource).Ok?
    ensures Keeps(p, SetSource(p, a, newSource).value.prog, SetSource(p, a, newSource).value.log)
    ensures TracksOthers(p, SetSource(p, a, newSource).value.log, a)
    ensures Separated(p, SetSource(p, a, newSource).value.log, a, SetSource(p, a, newSource).value.anchor)
  {
    var f := Fork(p, a, false).value;
    ForkKeeps(p, a, false);
    var b := f.anchor;
    var t := WithSource(f.prog[b.stmt], b.loc, newSource.value);
    WithSourceElsewhere(f.prog[b.stmt], b.loc, newSource.value);
    TouchKeeps(f.prog, b, t);
    KeepsConcat(p, f.prog, f.prog[b.stmt := t], f.log, [Touched(b)]);
    SeparatedConcat(p, f.prog, f.log, [Touched(b)], a, b, b);
    TracksOthersConcat(p, f.prog, f.log, [Touched(b)], a, b);
  }

  // ------------------------------------------------------- variable name

  /**
   The specifier renamed to `n`, keeping the export it takes and its own
   kind flag (the source drops the flag of a named import specifier; see
   the findings in README.md).
   */
  function RenameSpec(sp: Spec, n: string): Spec {
    sp.(name := n)
  }

  /** `s` with the binding at `l` renamed to `n`; a property whose key is not an identifier cannot be rebuilt. */
  function Renamed(s: Stmt, l: Loc, n: string): (r: Result<Stmt, MutationError>)
    requires ValidLoc(s, l) && IsMember(l)
    ensures r.Err? <==> l.PropAt? && s.decls[l.d].id.props[l.k].key.KeyOther?
  {
    match l
    case SpecAt(j) => Ok(s.(specs := s.specs[j := RenameSpec(s.specs[j], n)]))
    case DeclaratorAt(d) => Ok(s.(decls := s.decls[d := s.decls[d].(id := PId(n))]))
    case PropAt(d, k) =>
      var pr := s.decls[d].id.props[k];
      if pr.key.KeyOther? then Err(BuildFailure)
      else
        var np := Prop(pr.key, TargetId(n), pr.key.name == n);
        Ok(s.(decls := s.decls[d := s.decls[d].(id := PObj(s.decls[d].id.props[k := np]))]))
  }

  lemma RenamedElsewhere(s: Stmt, l: Loc, n: string)
    requires ValidLoc(s, l) && IsMember(l) && Renamed(s, l, n).Ok?
    ensures ValidLoc(Renamed(s, l, n).value, l)
    ensures SameElsewhere(s, Renamed(s, l, n).value, l)
  {
    var t := Renamed(s, l, n).value;
    forall l' | ValidLoc(s, l') && l' != l
      ensures ValidLoc(t, l') && ViewAt(t, l') == ViewAt(s, l')
    {
      match l' {
        case SpecAt(j) => assert t.specs[j] == s.specs[j];
        case DeclaratorAt(e) => assert t.decls[e] == s.decls[e];
        case PropAt(e, k) => assert t.decls[e].id.props[k] == s.decls[e].id.props[k];
        case _ =>
      }
    }
  }

  /**
   The `variableName` setter. Assigning the current name changes nothing;
   dynamic imports, bare imports, `export *` and `export {}` have no name to
   change. Otherwise the binding is renamed in place and keeps its source,
   kind and imported export (a declarator with a non-identifier pattern
   becomes a plain `x = require(…)`, which takes `*`).
   */
  function SetVariableName(p: Program, a: Anchor, newName: Option<string>): (r: Result<Outcome, MutationError>)
    requires Valid(p, a)
    ensures newName == ViewOf(p, a).variableName ==> r == Ok(Outcome(p, a, []))
    ensures newName != ViewOf(p, a).variableName && (a.loc.CallAt? || a.loc.Whole?) ==>
      r == Err(Unsupported(VariableNameAttr, ViewOf(p, a).flavor, ViewOf(p, a).source))
    ensures r.Ok? ==> Valid(r.value.prog, r.value.anchor) && r.value.anchor == a && |r.value.prog| == |p|
    ensures r.Ok? ==>
      var v, w := ViewOf(p, a), ViewOf(r.value.prog, r.value.anchor);
      && w.variableName == newName
      && w.source == v.source && w.kind == v.kind && w.flavor == v.flavor
      && w.importedExport.cjs == v.importedExport.cjs
      && (v.importedExport.name.Some? ==> w.importedExport == v.importedExport)
    ensures r.Ok? ==>
      && (forall i | 0 <= i < |p| && i != a.stmt :: r.value.prog[i] == p[i])
      && SameElsewhere(p[a.stmt], r.value.prog[a.stmt], a.loc)
  {
    var s := p[a.stmt];
    if newName == VariableName(s, a.loc) then Ok(Outcome(p, a, []))
    else if a.loc.CallAt? || a.loc.Whole? then
      Err(Unsupported(VariableNameAttr, FlavorOf(s, a.loc), Source(s, a.loc)))
    else if newName.None? then Err(BuildFailure)
    else
      var t :- Renamed(s, a.loc, newName.value);
      Ok(Outcome(p[a.stmt := t], a, [Touched(a)]))
  }

  /** Renaming one entity keeps every other entity tracked, in place and with its view. */
  lemma SetVariableNameKeeps(p: Program, a: Anchor, newName: Option<string>)
    requires Valid(p, a) && SetVariableName(p, a, newName).Ok?
    ensures Keeps(p, SetVariableName(p, a, newName).value.prog, SetVariableName(p, a, newName).value.log)
    ensures TracksOthers(p, SetVariableName(p, a, newName).value.log, a)
    ensures Separated(p, SetVariableName(p, a, newName).value.log, a, SetVariableName(p, a, newName).value.anchor)
  {
    var s := p[a.stmt];
    if newName == VariableName(s, a.loc) {
      KeepsNothing(p, a);
    } else {
      RenamedElsewhere(s, a.loc, newName.value);
      TouchKeeps(p, a, Renamed(s, a.loc, newName.value).value);
    }
  }

  // ----------------------------------------------------- imported export

  /** Where the binding sits in the statement `Rebound` builds. */
  function ReboundLoc(name: Option<string>, cjs: bool): Loc {
    if !cjs then SpecAt(0) else if name == Some("*") then DeclaratorAt(0) else PropAt(0, 0)
  }

  /**
   The fresh one-binding statement the `importedExport` setter builds for
   the binding at `l`: an import (or, for a re-export, an export-from)
   declaration with a namespace, default or named specifier when `cjs` is
   false; `const <pattern> = require(<source>)` when it is true. Building
   fails when the variable name, the source or the requested name is null.
   */
  function Rebound(s: Stmt, l: Loc, name: Option<string>, cjs: bool): (r: Result<Stmt, MutationError>)
    requires ValidLoc(s, l)
    ensures r.Err? <==> VariableName(s, l).None? || Source(s, l).None? || name.None?
    ensures r.Ok? ==>
      var t, m := r.value, ReboundLoc(name, cjs);
      && ValidLoc(t, m)
      && ImportSiblings(t, m) == 1
      && ImportedExportOf(t, m) == ImportedExport(name, cjs)
      && VariableName(t, m) == VariableName(s, l)
      && Source(t, m) == Source(s, l)
      && KindOf(t, m) == Value
      && FlavorOf(t, m) == (if cjs then RequireFlavor
                            else if FlavorOf(s, l) == EsmReexport then EsmReexport else EsmImport)
    ensures r.Ok? && !cjs ==>
      && (r.value.ImportDecl? || r.value.ExportFrom?) && r.value.flag.None?
      && |r.value.specs| == 1 && r.value.specs[0].flag.None?
    ensures r.Ok? && cjs && name == Some("*") ==>
      r.value == VarDecl(Const, [Declarator(PId(VariableName(s, l).value), Require(Lit(Source(s, l).value)))])
    ensures r.Ok? && cjs && name != Some("*") ==>
      r.value.VarDecl? && r.value.keyword == Const
      && r.value.decls[0].id.props[0].shorthand == (name == VariableName(s, l))
  {
    var v, src := VariableName(s, l), Source(s, l);
    if v.None? || src.None? || name.None? then Err(BuildFailure)
    else if !cjs then
      var sp :=
        if name.value == "*" then NamespaceSpec(v.value, None)
        else if name.value == "default" then DefaultSpec(v.value, None)
        else NamedSpec(name.value, v.value, None);
      if s.ExportFrom? || s.ExportAll? then Ok(ExportFrom(None, [sp], src.value))
      else Ok(ImportDecl(None, [sp], src.value))
    else
      var id :=
        if name.value == "*" then PId(v.value)
        else PObj([Prop(KeyId(name.value), TargetId(v.value), name.value == v.value)]);
      Ok(VarDecl(Const, [Declarator(id, Require(Lit(src.value)))]))
  }

  /** Where the statement inserted after index `i` lands once the old binding at `b` is removed. */
  function LandingIndex(q: Program, b: Anchor): nat
    requires Valid(q, b) && !b.loc.CallAt?
  {
    if RemovesStatement(q[b.stmt], b.loc) then b.stmt else b.stmt + 1
  }

  /** `Rebound` reads only the entity's view: two locations reporting the same view are rebuilt alike. */
  lemma ReboundOfView(s1: Stmt, l1: Loc, s2: Stmt, l2: Loc, name: Option<string>, cjs: bool)
    requires ValidLoc(s1, l1) && ValidLoc(s2, l2) && ViewAt(s1, l1) == ViewAt(s2, l2)
    ensures Rebound(s1, l1, name, cjs) == Rebound(s2, l2, name, cjs)
  {
  }

  /**
   The `importedExport` setter. Assigning the current pair changes nothing;
   dynamic and bare imports refuse any other pair. Otherwise the binding is
   forked, a fresh statement taking exactly the requested export is built
   from the current variable name and source and inserted right after it,
   and the old binding is removed: a binding alone in its statement has that
   statement replaced by the new one, any other binding leaves its list and
   the new statement follows the original.
   */
  function SetImportedExport(p: Program, a: Anchor, name: Option<string>, cjs: bool): (r: Result<Outcome, MutationError>)
    requires Valid(p, a)
    ensures ImportedExport(name, cjs) == ViewOf(p, a).importedExport ==> r == Ok(Outcome(p, a, []))
    ensures ImportedExport(name, cjs) != ViewOf(p, a).importedExport && (a.loc.CallAt? || (a.loc.Whole? && p[a.stmt].ImportDecl?)) ==>
      r == Err(Unsupported(ImportedExportAttr, ViewOf(p, a).flavor, ViewOf(p, a).source))
    ensures ImportedExport(name, cjs) != ViewOf(p, a).importedExport && !a.loc.CallAt? && !(a.loc.Whole? && p[a.stmt].ImportDecl?) ==>
      (r.Err? <==> Rebound(p[a.stmt], a.loc, name, cjs).Err?)
    ensures r.Ok? ==> Valid(r.value.prog, r.value.anchor)
    ensures r.Ok? ==>
      var v, w := ViewOf(p, a), ViewOf(r.value.prog, r.value.anchor);
      && w.importedExport == ImportedExport(name, cjs)
      && w.source == v.source && w.variableName == v.variableName
      && (ImportedExport(name, cjs) != v.importedExport ==>
            && w.kind == Value
            && w.flavor == (if cjs then RequireFlavor else if v.flavor == EsmReexport then EsmReexport else EsmImport))
    ensures r.Ok? && ImportedExport(name, cjs) != ViewOf(p, a).importedExport ==>
      && !a.loc.CallAt?
      && Rebound(p[a.stmt], a.loc, name, cjs).Ok?
      && var i, t := a.stmt, Rebound(p[a.stmt], a.loc, name, cjs).value;
         && r.value.prog[r.value.anchor.stmt] == t
         && r.value.anchor == Anchor(if RemovesStatement(p[i], a.loc) then i else i + 1, ReboundLoc(name, cjs))
         && r.value.prog == (if RemovesStatement(p[i], a.loc) then p[i := t]
                             else Insert(p[i := DeleteMember(p[i], a.loc)], i + 1, t))
  {
    var s := p[a.stmt];
    if ImportedExport(name, cjs) == ImportedExportOf(s, a.loc) then Ok(Outcome(p, a, []))
    else if a.loc.CallAt? || (a.loc.Whole? && s.ImportDecl?) then
      Err(Unsupported(ImportedExportAttr, FlavorOf(s, a.loc), Source(s, a.loc)))
    else
      var f :- Fork(p, a, false);
      var b := f.anchor;
      ReboundOfView(f.prog[b.stmt], b.loc, s, a.loc, name, cjs);
      var t :- Rebound(f.prog[b.stmt], b.loc, name, cjs);
      var o := Supplant(f.prog, b, t, ReboundLoc(name, cjs));
      ForkThenSupplant(p, a, t, ReboundLoc(name, cjs));
      Ok(Outcome(o.prog, o.anchor, f.log + o.log))
  }

  /**
   Inserts `t` right after the statement of `b`, then removes the binding at
   `b`: a binding alone in its statement has that statement replaced by `t`;
   otherwise it leaves its list and `t` follows the statement. The new
   anchor is `l` inside `t`.
   */
  function Supplant(p: Program, b: Anchor, t: Stmt, l: Loc): (r: Outcome)
    requires Valid(p, b) && !b.loc.CallAt? && ValidLoc(t, l)
    ensures Valid(r.prog, r.anchor) && r.prog[r.anchor.stmt] == t && r.anchor.loc == l
    ensures RemovesStatement(p[b.stmt], b.loc) ==> r.prog == p[b.stmt := t] && r.anchor.stmt == b.stmt
    ensures !RemovesStatement(p[b.stmt], b.loc) ==>
      r.prog == Insert(p[b.stmt := DeleteMember(p[b.stmt], b.loc)], b.stmt + 1, t) && r.anchor.stmt == b.stmt + 1
  {
    var q := Insert(p, b.stmt + 1, t);
    assert q[b.stmt] == p[b.stmt];
    var rm := Remove(q, b).value;
    var c := Anchor(LandingIndex(q, b), l);
    assert rm.prog[c.stmt] == t;
    InsertThenRemove(p, b, t);
    Outcome(rm.prog, c, [StmtInserted(b.stmt + 1)] + rm.log)
  }

  lemma InsertThenRemove(p: Program, b: Anchor, t: Stmt)
    requires Valid(p, b) && !b.loc.CallAt?
    ensures Valid(Insert(p, b.stmt + 1, t), b)
    ensures RemovesStatement(p[b.stmt], b.loc) ==> Remove(Insert(p, b.stmt + 1, t), b).value.prog == p[b.stmt := t]
    ensures !RemovesStatement(p[b.stmt], b.loc) ==>
      Remove(Insert(p, b.stmt + 1, t), b).value.prog == Insert(p[b.stmt := DeleteMember(p[b.stmt], b.loc)], b.stmt + 1, t)
  {
    var q := Insert(p, b.stmt + 1, t);
    assert q[b.stmt] == p[b.stmt];
    if RemovesStatement(p[b.stmt], b.loc) {
      assert Without(q, b.stmt) == p[b.stmt := t];
    } else {
      assert q[b.stmt := DeleteMember(p[b.stmt], b.loc)] == Insert(p[b.stmt := DeleteMember(p[b.stmt], b.loc)], b.stmt + 1, t);
    }
  }

  /** Forking a binding and then supplanting its solo statement leaves the original without it and `t` right after. */
  lemma ForkThenSupplant(p: Program, a: Anchor, t: Stmt, l: Loc)
    requires Valid(p, a) && !a.loc.CallAt? && Fork(p, a, false).Ok? && ValidLoc(t, l)
    ensures Valid(Fork(p, a, false).value.prog, Fork(p, a, false).value.anchor)
    ensures !Fork(p, a, false).value.anchor.loc.CallAt?
    ensures var f := Fork(p, a, false).value; var o := Supplant(f.prog, f.anchor, t, l);
      var i := a.stmt;
      && o.anchor == Anchor(if RemovesStatement(p[i], a.loc) then i else i + 1, l)
      && o.prog == (if RemovesStatement(p[i], a.loc) then p[i := t] else Insert(p[i := DeleteMember(p[i], a.loc)], i + 1, t))
  {
    var i := a.stmt;
    if ImportSiblings(p[i], a.loc) > 1 {
      ForkedThenSupplant(p, a, t, l);
    }
  }

  /** `ForkThenSupplant` for a binding with siblings: the fork's solo statement is the one replaced. */
  lemma ForkedThenSupplant(p: Program, a: Anchor, t: Stmt, l: Loc)
    requires Valid(p, a) && !a.loc.CallAt? && Fork(p, a, false).Ok? && ValidLoc(t, l)
    requires ImportSiblings(p[a.stmt], a.loc) > 1
    ensures Valid(Fork(p, a, false).value.prog, Fork(p, a, false).value.anchor)
    ensures !Fork(p, a, false).value.anchor.loc.CallAt?
    ensures var f := Fork(p, a, false).value; var o := Supplant(f.prog, f.anchor, t, l);
      var i := a.stmt;
      && !RemovesStatement(p[i], a.loc)
      && o.anchor == Anchor(i + 1, l)
      && o.prog == Insert(p[i := DeleteMember(p[i], a.loc)], i + 1, t)
  {
    var f := Fork(p, a, false).value;
    var i := a.stmt;
    var solo := SoloStmt(p[i], a.loc).value;
    assert f.anchor == Anchor(i + 1, FirstLoc(a.loc));
    assert RemovesStatement(f.prog[i + 1], f.anchor.loc);
    assert !RemovesStatement(p[i], a.loc);
    SetAfterFork(p, f.prog, i, DeleteMember(p[i], a.loc), t);
  }

  /** Overwriting the statement a fork inserted is inserting the new statement after the trimmed one. */
  lemma SetAfterFork<T>(p: seq<T>, q: seq<T>, i: nat, d: T, t: T)
    requires i < |p| && |q| == |p| + 1 && q[i] == d
    requires q[..i] == p[..i] && q[i + 2..] == p[i + 1..]
    ensures q[i + 1 := t] == Insert(p[i := d], i + 1, t)
  {
    var r, e := q[i + 1 := t], Insert(p[i := d], i + 1, t);
    forall m | 0 <= m < |r| ensures r[m] == e[m] {
      if m < i {
        assert q[m] == q[..i][m];
      } else if m > i + 1 {
        assert q[m] == q[i + 2..][m - (i + 2)];
      }
    }
  }

  /**
   Changing one entity's imported export keeps every other entity tracked
   and its view intact, except those its removal retires; none of them
   shares the new statement.
   */
  lemma SetImportedExportKeeps(p: Program, a: Anchor, name: Option<string>, cjs: bool)
    requires Valid(p, a) && SetImportedExport(p, a, name, cjs).Ok?
    ensures Keeps(p, SetImportedExport(p, a, name, cjs).value.prog, SetImportedExport(p, a, name, cjs).value.log)
    ensures forall b | Valid(p, b) && !Retires(p, a, b) :: RelocateAll(b, SetImportedExport(p, a, name, cjs).value.log).Some?
    ensures Separated(p, SetImportedExport(p, a, name, cjs).value.log, a, SetImportedExport(p, a, name, cjs).value.anchor)
  {
    var s := p[a.stmt];
    if ImportedExport(name, cjs) == ImportedExportOf(s, a.loc) {
      KeepsNothing(p, a);
    } else {
      var f := Fork(p, a, false).value;
      var b := f.anchor;
      var t := Rebound(f.prog[b.stmt], b.loc, name, cjs).value;
      ForkThenSupplantKeeps(p, a, t, ReboundLoc(name, cjs));
      var o := Supplant(f.prog, b, t, ReboundLoc(name, cjs));
      assert SetImportedExport(p, a, name, cjs).value == Outcome(o.prog, o.anchor, f.log + o.log);
    }
  }

  /**
   Forking a binding and supplanting it keeps every other entity's view and
   tracks each one its removal does not retire, outside the new statement.
   */
  lemma ForkThenSupplantKeeps(p: Program, a: Anchor, t: Stmt, l: Loc)
    requires Valid(p, a) && !a.loc.CallAt? && Fork(p, a, false).Ok? && ValidLoc(t, l)
    ensures Valid(Fork(p, a, false).value.prog, Fork(p, a, false).value.anchor)
    ensures !Fork(p, a, false).value.anchor.loc.CallAt?
    ensures var f := Fork(p, a, false).value; var o := Supplant(f.prog, f.anchor, t, l);
      && Keeps(p, o.prog, f.log + o.log)
      && (forall c | Valid(p, c) && !Retires(p, a, c) :: RelocateAll(c, f.log + o.log).Some?)
      && Separated(p, f.log + o.log, a, o.anchor)
  {
    var f := Fork(p, a, false).value;
    ForkKeeps(p, a, false);
    ForkThenSupplant(p, a, t, l);
    var b := f.anchor;
    var o := Supplant(f.prog, b, t, l);
    SupplantKeeps(f.prog, b, t, l);
    KeepsConcat(p, f.prog, o.prog, f.log, o.log);
    forall c | Valid(p, c) && !Retires(p, a, c)
      ensures RelocateAll(c, f.log + o.log).Some?
      ensures RelocateAll(c, f.log + o.log).value.stmt != o.anchor.stmt
    {
      ForkThenSupplantMoves(p, a, t, l, c);
    }
  }

  /** Where one entity the removal does not retire goes when a binding is forked and supplanted. */
  lemma ForkThenSupplantMoves(p: Program, a: Anchor, t: Stmt, l: Loc, c: Anchor)
    requires Valid(p, a) && !a.loc.CallAt? && Fork(p, a, false).Ok? && ValidLoc(t, l)
    requires Valid(p, c) && !Retires(p, a, c)
    requires Valid(Fork(p, a, false).value.prog, Fork(p, a, false).value.anchor)
    requires !Fork(p, a, false).value.anchor.loc.CallAt?
    ensures var f := Fork(p, a, false).value; var o := Supplant(f.prog, f.anchor, t, l);
      && RelocateAll(c, f.log + o.log).Some?
      && RelocateAll(c, f.log + o.log).value.stmt != o.anchor.stmt
  {
    var f := Fork(p, a, false).value;
    ForkKeeps(p, a, false);
    var b := f.anchor;
    var o := Supplant(f.prog, b, t, l);
    SupplantKeeps(f.prog, b, t, l);
    RelocateAllConcat(c, f.log, o.log);
    var d := RelocateAll(c, f.log).value;
    assert Valid(f.prog, d) && !Retires(f.prog, b, d);
  }

  /**
   Supplanting a binding retires exactly the entities its removal retires;
   every other one keeps its view and lands outside the new statement.
   */
  lemma SupplantKeeps(p: Program, b: Anchor, t: Stmt, l: Loc)
    requires Valid(p, b) && !b.loc.CallAt? && ValidLoc(t, l)
    ensures Keeps(p, Supplant(p, b, t, l).prog, Supplant(p, b, t, l).log)
    ensures forall c | Valid(p, c) :: RelocateAll(c, Supplant(p, b, t, l).log).None? <==> Retires(p, b, c)
    ensures forall c | Valid(p, c) && RelocateAll(c, Supplant(p, b, t, l).log).Some? ::
      RelocateAll(c, Supplant(p, b, t, l).log).value.stmt != Supplant(p, b, t, l).anchor.stmt
  {
    var q := Insert(p, b.stmt + 1, t);
    assert q[b.stmt] == p[b.stmt];
    InsertKeeps(p, b.stmt + 1, t);
    RemoveKeeps(q, b);
    var rm := Remove(q, b).value;
    KeepsConcat(p, q, rm.prog, [StmtInserted(b.stmt + 1)], rm.log);
    assert Supplant(p, b, t, l).log == [StmtInserted(b.stmt + 1)] + rm.log;
    assert Supplant(p, b, t, l).anchor.stmt == LandingIndex(q, b);
    forall c | Valid(p, c)
      ensures RelocateAll(c, Supplant(p, b, t, l).log).None? <==> Retires(p, b, c)
      ensures RelocateAll(c, Supplant(p, b, t, l).log).Some? ==>
        RelocateAll(c, Supplant(p, b, t, l).log).value.stmt != Supplant(p, b, t, l).anchor.stmt
    {
      SupplantMoves(p, b, t, c);
    }
  }

  /**
   Where one other entity goes when a binding is supplanted: the statement
   goes in after the binding's own, then the binding is removed.
   */
  lemma SupplantMoves(p: Program, b: Anchor, t: Stmt, c: Anchor)
    requires Valid(p, b) && !b.loc.CallAt? && Valid(p, c)
    ensures Valid(Insert(p, b.stmt + 1, t), b) && Remove(Insert(p, b.stmt + 1, t), b).Ok?
    ensures var q := Insert(p, b.stmt + 1, t);
      var log := [StmtInserted(b.stmt + 1)] + Remove(q, b).value.log;
      && (RelocateAll(c, log).None? <==> Retires(p, b, c))
      && (RelocateAll(c, log).Some? ==> RelocateAll(c, log).value.stmt != LandingIndex(q, b))
  {
    var q := Insert(p, b.stmt + 1, t);
    assert q[b.stmt] == p[b.stmt];
    var c' := if c.stmt >= b.stmt + 1 then Anchor(c.stmt + 1, c.loc) else c;
    assert RelocateAll(c, [StmtInserted(b.stmt + 1)]) == Some(c') && Valid(q, c') by {
      InsertKeeps(p, b.stmt + 1, t);
    }
    var rm := Remove(q, b).value;
    RelocateAllConcat(c, [StmtInserted(b.stmt + 1)], rm.log);
    assert Retires(q, b, c') == Retires(p, b, c);
    RemoveMoves(q, b, c');
    if RelocateAll(c', rm.log).Some? && RemovesStatement(p[b.stmt], b.loc) && c'.stmt == b.stmt && !b.loc.PropAt? {
      AloneInStatement(p[b.stmt], b.loc, c.loc);
    }
  }

  /** Where one other entity goes when a binding is removed. */
  lemma RemoveMoves(p: Program, a: Anchor, b: Anchor)
    requires Valid(p, a) && Remove(p, a).Ok? && Valid(p, b)
    ensures RelocateAll(b, Remove(p, a).value.log).None? <==> Retires(p, a, b)
    ensures RelocateAll(b, Remove(p, a).value.log).Some? ==>
      RelocateAll(b, Remove(p, a).value.log).value.stmt
        == (if RemovesStatement(p[a.stmt], a.loc) && b.stmt > a.stmt then b.stmt - 1 else b.stmt)
  {
    RemoveKeeps(p, a);
  }

  // ---------------------------------------------------------------- kind

  /**
   `s` with the kind at `l` set to `k`: the declaration's flag is set, and a
   specifier's own flag, which would otherwise take precedence, is cleared
   (the source leaves it; see the findings in README.md).
   */
  function Retyped(s: Stmt, l: Loc, k: Kind): Stmt
    requires ValidLoc(s, l) && (l.SpecAt? || (l.Whole? && s.ExportFrom?))
  {
    if l.SpecAt? then s.(flag := Some(k), specs := s.specs[l.j := s.specs[l.j].(flag := None)])
    else ExportFrom(Some(k), s.specs, s.src)
  }

  lemma RetypedElsewhere(s: Stmt, l: Loc, k: Kind)
    requires ValidLoc(s, l) && (l.SpecAt? || (l.Whole? && s.ExportFrom?)) && ImportSiblings(s, l) == 1
    ensures ValidLoc(Retyped(s, l, k), l)
    ensures ViewAt(Retyped(s, l, k), l) == ViewAt(s, l).(kind := k)
    ensures SameElsewhere(s, Retyped(s, l, k), l)
  {
  }

  /**
   The kind setter on an ESM-shaped binding: fork a specifier, then retype
   its now solo declaration. The binding ends alone in a declaration
   flagged `k`.
   */
  function SetKindEsm(p: Program, a: Anchor, k: Kind): (r: Outcome)
    requires Valid(p, a) && (a.loc.SpecAt? || (a.loc.Whole? && p[a.stmt].ExportFrom?))
    ensures Valid(r.prog, r.anchor)
    ensures ViewOf(r.prog, r.anchor) == ViewOf(p, a).(kind := k)
    ensures r.anchor.loc == (if a.loc.SpecAt? then SpecAt(0) else Whole)
    ensures r.prog[r.anchor.stmt].flag == Some(k) && ImportSiblings(r.prog[r.anchor.stmt], r.anchor.loc) == 1
    ensures |r.prog| == |p| + (if ImportSiblings(p[a.stmt], a.loc) > 1 then 1 else 0)
    ensures var f := if a.loc.SpecAt? then Fork(p, a, false).value else Outcome(p, a, []);
      && r.anchor.stmt == f.anchor.stmt && |r.prog| == |f.prog|
      && (forall i | 0 <= i < |f.prog| && i != f.anchor.stmt :: r.prog[i] == f.prog[i])
      && SameElsewhere(f.prog[f.anchor.stmt], r.prog[f.anchor.stmt], f.anchor.loc)
  {
    if a.loc.SpecAt? then
      var f := Fork(p, a, false).value;
      var b := f.anchor;
      RetypedElsewhere(f.prog[b.stmt], b.loc, k);
      Outcome(f.prog[b.stmt := Retyped(f.prog[b.stmt], b.loc, k)], b, f.log + [Touched(b)])
    else
      RetypedElsewhere(p[a.stmt], a.loc, k);
      Outcome(p[a.stmt := Retyped(p[a.stmt], a.loc, k)], a, [Touched(a)])
  }

  /** Retyping one entity keeps every other entity tracked, with its view, and apart from it. */
  lemma SetKindEsmKeeps(p: Program, a: Anchor, k: Kind)
    requires Valid(p, a) && (a.loc.SpecAt? || (a.loc.Whole? && p[a.stmt].ExportFrom?))
    ensures Keeps(p, SetKindEsm(p, a, k).prog, SetKindEsm(p, a, k).log)
    ensures TracksOthers(p, SetKindEsm(p, a, k).log, a)
    ensures Separated(p, SetKindEsm(p, a, k).log, a, SetKindEsm(p, a, k).anchor)
  {
    if a.loc.SpecAt? {
      var f := Fork(p, a, false).value;
      ForkKeeps(p, a, false);
      var b := f.anchor;
      var t := Retyped(f.prog[b.stmt], b.loc, k);
      RetypedElsewhere(f.prog[b.stmt], b.loc, k);
      TouchKeeps(f.prog, b, t);
      KeepsConcat(p, f.prog, f.prog[b.stmt := t], f.log, [Touched(b)]);
      SeparatedConcat(p, f.prog, f.log, [Touched(b)], a, b, b);
      TracksOthersConcat(p, f.prog, f.log, [Touched(b)], a, b);
    } else {
      var t := Retyped(p[a.stmt], a.loc, k);
      RetypedElsewhere(p[a.stmt], a.loc, k);
      TouchKeeps(p, a, t);
    }
  }

  /**
   The `kind` setter. Assigning the current kind changes nothing, even on a
   dynamic import. A value other than value/type/typeof is refused, and so
   are dynamic imports, bare imports and `export *`. A `require` binding is
   first turned into an import of the same export (ESM-shaped); then the
   binding is forked and its declaration retyped.
   */
  function SetKind(p: Program, a: Anchor, newKind: string): (r: Result<Outcome, MutationError>)
    requires Valid(p, a)
    ensures newKind == KindName(ViewOf(p, a).kind) ==> r == Ok(Outcome(p, a, []))
    ensures newKind != KindName(ViewOf(p, a).kind) && ParseKind(newKind).None? ==> r == Err(InvalidKind(newKind))
    ensures newKind != KindName(ViewOf(p, a).kind) && ParseKind(newKind).Some?
            && (a.loc.CallAt? || (a.loc.Whole? && !p[a.stmt].ExportFrom?)) ==>
      r == Err(Unsupported(KindAttr, ViewOf(p, a).flavor, ViewOf(p, a).source))
    ensures r.Ok? ==> Valid(r.value.prog, r.value.anchor)
    ensures r.Ok? ==>
      var v, w := ViewOf(p, a), ViewOf(r.value.prog, r.value.anchor);
      && KindName(w.kind) == newKind
      && w.source == v.source && w.variableName == v.variableName
      && (newKind != KindName(v.kind) ==>
            && w.importedExport == ImportedExport(v.importedExport.name, false)
            && w.flavor == (if v.flavor == RequireFlavor then EsmImport else v.flavor))
    ensures r.Ok? && newKind != KindName(ViewOf(p, a).kind) && !ViewOf(p, a).importedExport.cjs ==>
      && (a.loc.SpecAt? || (a.loc.Whole? && p[a.stmt].ExportFrom?))
      && var f := if a.loc.SpecAt? then Fork(p, a, false).value else Outcome(p, a, []);
         && r.value.anchor.stmt == f.anchor.stmt && |r.value.prog| == |f.prog|
         && (forall i | 0 <= i < |f.prog| && i != f.anchor.stmt :: r.value.prog[i] == f.prog[i])
  {
    var s := p[a.stmt];
    if newKind == KindName(KindOf(s, a.loc)) then Ok(Outcome(p, a, []))
    else
      match ParseKind(newKind)
      case None => Err(InvalidKind(newKind))
      case Some(k) =>
        if a.loc.CallAt? || (a.loc.Whole? && !s.ExportFrom?) then
          Err(Unsupported(KindAttr, FlavorOf(s, a.loc), Source(s, a.loc)))
        else if ImportedExportOf(s, a.loc).cjs then
          var conv :- SetImportedExport(p, a, ImportedExportOf(s, a.loc).name, false);
          var e := SetKindEsm(conv.prog, conv.anchor, k);
          Ok(Outcome(e.prog, e.anchor, conv.log + e.log))
        else
          Ok(SetKindEsm(p, a, k))
  }

  /**
   On a `require` binding the kind setter leaves no `require` behind: the
   binding's declarator or property is replaced by an import declaration of
   the same export, flagged with the new kind, in the same place as the
   `importedExport` setter puts it.
   */
  lemma SetKindOfRequire(p: Program, a: Anchor, newKind: string)
    requires Valid(p, a) && SetKind(p, a, newKind).Ok? && newKind != KindName(ViewOf(p, a).kind)
    requires ViewOf(p, a).importedExport.cjs
    ensures ParseKind(newKind).Some? && !a.loc.CallAt?
    ensures Rebound(p[a.stmt], a.loc, ViewOf(p, a).importedExport.name, false).Ok?
    ensures var i, k := a.stmt, ParseKind(newKind).value;
      var t := Rebound(p[i], a.loc, ViewOf(p, a).importedExport.name, false).value;
      && t.ImportDecl? && |t.specs| == 1
      && var u := ImportDecl(Some(k), t.specs, t.src);
         SetKind(p, a, newKind).value.prog
         == (if RemovesStatement(p[i], a.loc) then p[i := u] else Insert(p[i := DeleteMember(p[i], a.loc)], i + 1, u))
  {
    var i, k, name := a.stmt, ParseKind(newKind).value, ViewOf(p, a).importedExport.name;
    var conv := SetImportedExport(p, a, name, false).value;
    var t := Rebound(p[i], a.loc, name, false).value;
    var j := conv.anchor.stmt;
    var u := ImportDecl(Some(k), t.specs, t.src);
    SetKindConverts(p, a, newKind);
    RetypeSolo(conv.prog, conv.anchor, k);
    if !RemovesStatement(p[i], a.loc) {
      InsertThenSet(p[i := DeleteMember(p[i], a.loc)], i + 1, t, u);
    }
  }

  /** On a `require` binding the kind setter retypes what the `importedExport` setter produced. */
  lemma SetKindConverts(p: Program, a: Anchor, newKind: string)
    requires Valid(p, a) && SetKind(p, a, newKind).Ok? && newKind != KindName(ViewOf(p, a).kind)
    requires ViewOf(p, a).importedExport.cjs
    ensures ParseKind(newKind).Some? && SetImportedExport(p, a, ViewOf(p, a).importedExport.name, false).Ok?
    ensures var conv := SetImportedExport(p, a, ViewOf(p, a).importedExport.name, false).value;
      SetKind(p, a, newKind).value.prog == SetKindEsm(conv.prog, conv.anchor, ParseKind(newKind).value).prog
  {
  }

  /** Overwriting a freshly inserted element is inserting the new one instead. */
  lemma InsertThenSet<T>(xs: seq<T>, i: nat, t: T, u: T)
    requires i <= |xs|
    ensures Insert(xs, i, t)[i := u] == Insert(xs, i, u)
  {
    var r, e := Insert(xs, i, t)[i := u], Insert(xs, i, u);
    assert forall m | 0 <= m < |r| :: r[m] == e[m];
  }

  /** Retyping a binding that is already alone, with no flag of its own, just flags its declaration. */
  lemma RetypeSolo(q: Program, b: Anchor, k: Kind)
    requires Valid(q, b) && b.loc == SpecAt(0) && q[b.stmt].ImportDecl? && |q[b.stmt].specs| == 1 && q[b.stmt].specs[0].flag.None?
    ensures SetKindEsm(q, b, k).prog == q[b.stmt := ImportDecl(Some(k), q[b.stmt].specs, q[b.stmt].src)]
  {
    var t := q[b.stmt];
    assert Fork(q, b, false) == Ok(Outcome(q, b, []));
    assert t.specs[0].(flag := None) == t.specs[0];
    assert t.specs[0 := t.specs[0]] == t.specs;
    assert Retyped(t, SpecAt(0), k) == ImportDecl(Some(k), t.specs, t.src);
  }

  /**
   Changing one entity's kind keeps every other entity tracked and its view
   intact, except those the removal of a `require` binding retires.
   */
  lemma SetKindKeeps(p: Program, a: Anchor, newKind: string)
    requires Valid(p, a) && SetKind(p, a, newKind).Ok?
    ensures Keeps(p, SetKind(p, a, newKind).value.prog, SetKind(p, a, newKind).value.log)
    ensures forall b | Valid(p, b) && !Retires(p, a, b) :: RelocateAll(b, SetKind(p, a, newKind).value.log).Some?
    ensures Separated(p, SetKind(p, a, newKind).value.log, a, SetKind(p, a, newKind).value.anchor)
  {
    var s := p[a.stmt];
    if newKind == KindName(KindOf(s, a.loc)) {
      KeepsNothing(p, a);
    } else {
      var k := ParseKind(newKind).value;
      if ImportedExportOf(s, a.loc).cjs {
        var name := ImportedExportOf(s, a.loc).name;
        var conv := SetImportedExport(p, a, name, false).value;
        var e := SetKindEsm(conv.prog, conv.anchor, k);
        SetImportedExportKeeps(p, a, name, false);
        SetKindEsmKeeps(conv.prog, conv.anchor, k);
        KeepsConcat(p, conv.prog, e.prog, conv.log, e.log);
        SeparatedConcat(p, conv.prog, conv.log, e.log, a, conv.anchor, e.anchor);
        forall b | Valid(p, b) && !Retires(p, a, b) ensures RelocateAll(b, conv.log + e.log).Some? {
          RelocateAllConcat(b, conv.log, e.log);
          var c := RelocateAll(b, conv.log).value;
          assert Valid(conv.prog, c) && c != conv.anchor;
        }
      } else {
        SetKindEsmKeeps(p, a, k);
        forall b | Valid(p, b) && !Retires(p, a, b) ensures RelocateAll(b, SetKindEsm(p, a, k).log).Some? {
        }
      }
    }
  }
}

=== FILE: imports_visitor.dfy ===
/**
 The collector: one walk over a program that emits an entity anchor per
 binding, in source order. Import declarations yield one entity per
 specifier (or one for the declaration when it has none), `require`
 declarators one per destructured property (or one for the declarator), and
 every dynamic `import()` call one. Re-export declarations have no visitor
 and yield nothing.
 */
module ImportsVisitor {
  import opened Wrappers
  import opened Syntax
  import opened ImportDefinition

  /** Statements the collector visits; `export … from` declarations are not among them. */
  predicate Collectable(s: Stmt) {
    !(s.ExportFrom? || s.ExportAll?)
  }

  /** The position of a location inside its statement: list index, then property index. */
  function Major(l: Loc): nat {
    match l
    case SpecAt(j) => j
    case Whole => 0
    case DeclaratorAt(d) => d
    case PropAt(d, _) => d
    case CallAt(c) => c
  }

  function Minor(l: Loc): nat {
    if l.PropAt? then l.k else 0
  }

  /** `a` comes strictly before `b` in the source text. */
  predicate Precedes(a: Anchor, b: Anchor) {
    || a.stmt < b.stmt
    || (a.stmt == b.stmt && Major(a.loc) < Major(b.loc))
    || (a.stmt == b.stmt && Major(a.loc) == Major(b.loc) && Minor(a.loc) < Minor(b.loc))
  }

  predicate InSourceOrder(r: seq<Anchor>) {
    forall x, y {:trigger Precedes(r[x], r[y])} :: 0 <= x < y < |r| ==> Precedes(r[x], r[y])
  }

  /** Two source-ordered runs, the first wholly before the second, make one source-ordered run. */
  lemma OrderedConcat(r1: seq<Anchor>, r2: seq<Anchor>)
    requires InSourceOrder(r1) && InSourceOrder(r2)
    requires forall a, b :: a in r1 && b in r2 ==> Precedes(a, b)
    ensures InSourceOrder(r1 + r2)
  {
    var r := r1 + r2;
    forall x, y | 0 <= x < y < |r|
      ensures Precedes(r[x], r[y])
    {
      if y < |r1| {
        assert r[x] == r1[x] && r[y] == r1[y];
      } else if x >= |r1| {
        assert r[x] == r2[x - |r1|] && r[y] == r2[y - |r1|];
      } else {
        assert r[x] in r1 && r[y] in r2;
      }
    }
  }

  /** The entities of declarator `d` of the variable declaration `s` at index `i`. */
  function DeclaratorEntities(s: Stmt, i: nat, d: nat): (r: seq<Anchor>)
    requires s.VarDecl? && d < |s.decls|
    ensures forall a {:trigger a in r} :: a in r <==> a.stmt == i && (a.loc.DeclaratorAt? || a.loc.PropAt?) && a.loc.d == d && ValidLoc(s, a.loc)
    ensures !s.decls[d].init.Require? ==> r == []
    ensures s.decls[d].init.Require? && !s.decls[d].id.PObj? ==> r == [Anchor(i, DeclaratorAt(d))]
    ensures InSourceOrder(r)
  {
    var dc := s.decls[d];
    if !dc.init.Require? then []
    else if dc.id.PObj? then
      var r := seq(|dc.id.props|, k requires 0 <= k < |dc.id.props| => Anchor(i, PropAt(d, k)));
      assert forall a :: a in r ==> a.loc.PropAt? && a.loc.k < |dc.id.props|;
      assert forall k :: 0 <= k < |dc.id.props| ==> r[k] == Anchor(i, PropAt(d, k));
      r
    else [Anchor(i, DeclaratorAt(d))]
  }

  /** The entities of declarators `from` onwards of the variable declaration `s` at index `i`. */
  function DeclaratorsFrom(s: Stmt, i: nat, from: nat): (r: seq<Anchor>)
    requires s.VarDecl? && from <= |s.decls|
    ensures forall a {:trigger a in r} :: a in r <==> a.stmt == i && (a.loc.DeclaratorAt? || a.loc.PropAt?) && a.loc.d >= from && ValidLoc(s, a.loc)
    ensures InSourceOrder(r)
    decreases |s.decls| - from
  {
    if from == |s.decls| then []
    else
      var here, rest := DeclaratorEntities(s, i, from), DeclaratorsFrom(s, i, from + 1);
      OrderedConcat(here, rest);
      here + rest
  }

  /** The entities statement `s`, at index `i`, contributes. */
  function CollectStmt(s: Stmt, i: nat): (r: seq<Anchor>)
    ensures forall a {:trigger a in r} :: a in r <==> a.stmt == i && ValidLoc(s, a.loc) && Collectable(s)
    ensures InSourceOrder(r)
    ensures s.ImportDecl? && |s.specs| == 0 ==> r == [Anchor(i, Whole)]
    ensures s.ImportDecl? ==> |r| == (if |s.specs| == 0 then 1 else |s.specs|)
    ensures s.ImportDecl? && |s.specs| > 0 ==> forall j :: 0 <= j < |r| ==> r[j] == Anchor(i, SpecAt(j))
    ensures s.ExprStmt? ==> |r| == |s.calls|
  {
    match s
    case ImportDecl(_, specs, _) =>
      if |specs| == 0 then [Anchor(i, Whole)]
      else
        var r := seq(|specs|, j requires 0 <= j < |specs| => Anchor(i, SpecAt(j)));
        assert forall j :: 0 <= j < |specs| ==> r[j] == Anchor(i, SpecAt(j));
        assert forall a :: a in r ==> a.loc.SpecAt? && a.loc.j < |specs|;
        r
    case VarDecl(_, _) => DeclaratorsFrom(s, i, 0)
    case ExprStmt(calls) =>
      var r := seq(|calls|, c requires 0 <= c < |calls| => Anchor(i, CallAt(c)));
      assert forall c :: 0 <= c < |calls| ==> r[c] == Anchor(i, CallAt(c));
      assert forall a :: a in r ==> a.loc.CallAt? && a.loc.c < |calls|;
      r
    case _ => []
  }

  function CollectFrom(p: Program, i: nat): (r: seq<Anchor>)
    requires i <= |p|
    ensures forall a {:trigger a in r} :: a in r <==> i <= a.stmt && Valid(p, a) && Collectable(p[a.stmt])
    ensures InSourceOrder(r)
    decreases |p| - i
  {
    if i == |p| then []
    else
      var here, rest := CollectStmt(p[i], i), CollectFrom(p, i + 1);
      OrderedConcat(here, rest);
      here + rest
  }

  /**
   The entities of program `p`, as the visitor pushes them: exactly the
   valid anchors outside re-export declarations, each once, in source order.
   */
  function Collect(p: Program): (r: seq<Anchor>)
    ensures forall a {:trigger a in r} :: a in r <==> Valid(p, a) && Collectable(p[a.stmt])
    ensures forall k :: 0 <= k < |r| ==> Valid(p, r[k])
    ensures InSourceOrder(r)
  {
    var r := CollectFrom(p, 0);
    assert forall k :: 0 <= k < |r| ==> r[k] in r;
    r
  }

  /** Source order is strict, so the collector never emits an entity twice. */
  lemma CollectDistinct(p: Program)
    ensures forall x, y :: 0 <= x < y < |Collect(p)| ==> Collect(p)[x] != Collect(p)[y]
  {
    forall x, y | 0 <= x < y < |Collect(p)| ensures Collect(p)[x] != Collect(p)[y] {
      assert Precedes(Collect(p)[x], Collect(p)[y]);
    }
  }

  /**
   What the collected entities report: never a re-export, a `require`
   binding or a dynamic import is always of kind `value`, and a dynamic
   import never binds a name and always takes the whole namespace.
   */
  lemma CollectedViews(p: Program)
    ensures forall a :: a in Collect(p) ==>
      var v := ViewOf(p, a);
      && v.flavor != EsmReexport
      && (v.flavor in {RequireFlavor, DynamicImport} ==> v.kind == Value)
      && (v.flavor == DynamicImport ==> v.variableName.None? && v.importedExport == ImportedExport(Some("*"), false))
      && (v.importedExport.cjs <==> v.flavor == RequireFlavor)
  {
  }

  /** A `require` declarator whose pattern is neither an identifier nor an object (`const [x] = require("y")`) binds no name and takes no known export. */
  lemma OtherPatternView(s: Stmt, d: nat)
    requires s.VarDecl? && d < |s.decls| && s.decls[d].init.Require? && s.decls[d].id.POther?
    ensures ValidLoc(s, DeclaratorAt(d))
    ensures VariableName(s, DeclaratorAt(d)).None?
    ensures ImportedExportOf(s, DeclaratorAt(d)) == ImportedExport(None, true)
  {
  }

  /** One statement's entities, then the rest of the program's. */
  lemma CollectFromUnfold(p: Program, i: nat, here: seq<Anchor>, rest: seq<Anchor>)
    requires i < |p| && CollectStmt(p[i], i) == here && CollectFrom(p, i + 1) == rest
    ensures CollectFrom(p, i) == here + rest
  {
  }

  // ------------------------------------------------------------------------
  // The collector's test tables.

  /**
   `import foo from "bar"; import { zoop, zow as zip } from "zeeoop";
   import * as star from "shooting-stars"; import "foo";`
   */
  function ImportDeclarations(): Program {
    [ImportDecl(None, [DefaultSpec("foo", None)], "bar"),
     ImportDecl(None, [NamedSpec("zoop", "zoop", None), NamedSpec("zow", "zip", None)], "zeeoop"),
     ImportDecl(None, [NamespaceSpec("star", None)], "shooting-stars"),
     ImportDecl(None, [], "foo")]
  }

  lemma ImportDeclarationsTail()
    ensures CollectFrom(ImportDeclarations(), 2) == [Anchor(2, SpecAt(0)), Anchor(3, Whole)]
  {
    var p := ImportDeclarations();
    assert CollectFrom(p, 4) == [];
    assert CollectFrom(p, 3) == [Anchor(3, Whole)];
    assert CollectStmt(p[2], 2) == [Anchor(2, SpecAt(0))];
  }

  lemma ImportDeclarationsCollected()
    ensures Collect(ImportDeclarations()) == [Anchor(0, SpecAt(0)), Anchor(1, SpecAt(0)), Anchor(1, SpecAt(1)), Anchor(2, SpecAt(0)), Anchor(3, Whole)]
  {
    var p := ImportDeclarations();
    ImportDeclarationsTail();
    assert CollectStmt(p[1], 1) == [Anchor(1, SpecAt(0)), Anchor(1, SpecAt(1))];
    CollectFromUnfold(p, 1, [Anchor(1, SpecAt(0)), Anchor(1, SpecAt(1))], [Anchor(2, SpecAt(0)), Anchor(3, Whole)]);
    assert CollectStmt(p[0], 0) == [Anchor(0, SpecAt(0))];
    CollectFromUnfold(p, 0, [Anchor(0, SpecAt(0))], [Anchor(1, SpecAt(0)), Anchor(1, SpecAt(1)), Anchor(2, SpecAt(0)), Anchor(3, Whole)]);
  }

  lemma ImportDeclarationsExample()
    ensures var p := ImportDeclarations();
      && Collect(p) == [Anchor(0, SpecAt(0)), Anchor(1, SpecAt(0)), Anchor(1, SpecAt(1)), Anchor(2, SpecAt(0)), Anchor(3, Whole)]
      && [VariableName(p[0], SpecAt(0)), VariableName(p[1], SpecAt(0)), VariableName(p[1], SpecAt(1)),
          VariableName(p[2], SpecAt(0)), VariableName(p[3], Whole)]
         == [Some("foo"), Some("zoop"), Some("zip"), Some("star"), None]
      && [ImportedExportOf(p[0], SpecAt(0)).name, ImportedExportOf(p[1], SpecAt(0)).name, ImportedExportOf(p[1], SpecAt(1)).name,
          ImportedExportOf(p[2], SpecAt(0)).name, ImportedExportOf(p[3], Whole).name]
         == [Some("default"), Some("zoop"), Some("zow"), Some("*"), Some("*")]
      && [Source(p[0], SpecAt(0)), Source(p[1], SpecAt(0)), Source(p[1], SpecAt(1)), Source(p[2], SpecAt(0)), Source(p[3], Whole)]
         == [Some("bar"), Some("zeeoop"), Some("zeeoop"), Some("shooting-stars"), Some("foo")]
  {
    ImportDeclarationsCollected();
  }

  /**
   `const foo = require(something); const { bar: { baz } } = require("bar");
   const [ bla ] = require("some-array");`
   */
  lemma PartialRequiresExample()
    ensures var p := [
        VarDecl(Const, [Declarator(PId("foo"), Require(NonLit))]),
        VarDecl(Const, [Declarator(PObj([Prop(KeyId("bar"), TargetOther, false)]), Require(Lit("bar")))]),
        VarDecl(Const, [Declarator(POther, Require(Lit("some-array")))])];
      var r := Collect(p);
      && r == [Anchor(0, DeclaratorAt(0)), Anchor(1, PropAt(0, 0)), Anchor(2, DeclaratorAt(0))]
      && ViewOf(p, r[0]) == View(None, Some("foo"), ImportedExport(Some("*"), true), Value, RequireFlavor)
      && ViewOf(p, r[1]) == View(Some("bar"), None, ImportedExport(Some("bar"), true), Value, RequireFlavor)
      && ViewOf(p, r[2]) == View(Some("some-array"), None, ImportedExport(None, true), Value, RequireFlavor)
  {
    var p := [
        VarDecl(Const, [Declarator(PId("foo"), Require(NonLit))]),
        VarDecl(Const, [Declarator(PObj([Prop(KeyId("bar"), TargetOther, false)]), Require(Lit("bar")))]),
        VarDecl(Const, [Declarator(POther, Require(Lit("some-array")))])];
    assert CollectFrom(p, 3) == [];
    assert CollectStmt(p[2], 2) == [Anchor(2, DeclaratorAt(0))] by {
      assert DeclaratorsFrom(p[2], 2, 1) == [];
    }
    assert CollectStmt(p[1], 1) == [Anchor(1, PropAt(0, 0))] by {
      assert DeclaratorsFrom(p[1], 1, 1) == [];
      assert DeclaratorEntities(p[1], 1, 0) == [Anchor(1, PropAt(0, 0))];
    }
    assert CollectStmt(p[0], 0) == [Anchor(0, DeclaratorAt(0))] by {
      assert DeclaratorsFrom(p[0], 0, 1) == [];
    }
  }

  /**
   `import type { Something } from "somewhere"; import typeof SomethingElse
   from "somewhere-else"; import { type Foo } from "foo";
   import Bar, { typeof Baz } from "bar";`
   */
  function FlowImports(): Program {
    [ImportDecl(Some(Type), [NamedSpec("Something", "Something", None)], "somewhere"),
     ImportDecl(Some(TypeOf), [DefaultSpec("SomethingElse", None)], "somewhere-else"),
     ImportDecl(None, [NamedSpec("Foo", "Foo", Some(Type))], "foo"),
     ImportDecl(None, [DefaultSpec("Bar", None), NamedSpec("Baz", "Baz", Some(TypeOf))], "bar")]
  }

  lemma FlowImportsTail()
    ensures CollectFrom(FlowImports(), 2) == [Anchor(2, SpecAt(0)), Anchor(3, SpecAt(0)), Anchor(3, SpecAt(1))]
  {
    var p := FlowImports();
    assert CollectFrom(p, 4) == [];
    assert CollectStmt(p[3], 3) == [Anchor(3, SpecAt(0)), Anchor(3, SpecAt(1))];
    assert CollectStmt(p[2], 2) == [Anchor(2, SpecAt(0))];
  }

  lemma FlowImportsCollected()
    ensures Collect(FlowImports()) == [Anchor(0, SpecAt(0)), Anchor(1, SpecAt(0)), Anchor(2, SpecAt(0)), Anchor(3, SpecAt(0)), Anchor(3, SpecAt(1))]
  {
    var p := FlowImports();
    FlowImportsTail();
    assert CollectStmt(p[1], 1) == [Anchor(1, SpecAt(0))];
    CollectFromUnfold(p, 1, [Anchor(1, SpecAt(0))], [Anchor(2, SpecAt(0)), Anchor(3, SpecAt(0)), Anchor(3, SpecAt(1))]);
    assert CollectStmt(p[0], 0) == [Anchor(0, SpecAt(0))];
    CollectFromUnfold(p, 0, [Anchor(0, SpecAt(0))], [Anchor(1, SpecAt(0)), Anchor(2, SpecAt(0)), Anchor(3, SpecAt(0)), Anchor(3, SpecAt(1))]);
  }

  lemma FlowExample()
    ensures var p := FlowImports();
      && Collect(p) == [Anchor(0, SpecAt(0)), Anchor(1, SpecAt(0)), Anchor(2, SpecAt(0)), Anchor(3, SpecAt(0)), Anchor(3, SpecAt(1))]
      && [KindOf(p[0], SpecAt(0)), KindOf(p[1], SpecAt(0)), KindOf(p[2], SpecAt(0)), KindOf(p[3], SpecAt(0)), KindOf(p[3], SpecAt(1))]
         == [Type, TypeOf, Type, Value, TypeOf]
  {
    FlowImportsCollected();
  }

  /** A re-export is valid for the getters but never collected: `export * from "x"` yields no entity. */
  lemma ReexportNotCollected(src: string)
    ensures Valid([ExportAll(None, src)], Anchor(0, Whole))
    ensures Collect([ExportAll(None, src)]) == []
  {
    assert CollectFrom([ExportAll(None, src)], 1) == [];
  }
}

=== FILE: mutation_examples.dfy ===
/**
 Rows of the mutators' test tables, each stated on the abstract program:
 the program before, the call, and the program (or the failure) after.
 */
module MutationExamples {
  import opened Wrappers
  import opened Syntax
  import opened ImportDefinition
  import opened Edits
  import opened ImportMutation

  // -------------------------------------------------------------- remove

  /** `import foo, { bar } from "bar"`, removing `foo`, leaves `import { bar } from "bar"`. */
  lemma RemoveDefaultBesideNamed()
    ensures Remove([ImportDecl(None, [DefaultSpec("foo", None), NamedSpec("bar", "bar", None)], "bar")], Anchor(0, SpecAt(0)))
      == Ok(Removal([ImportDecl(None, [NamedSpec("bar", "bar", None)], "bar")], [MemberDeleted(Anchor(0, SpecAt(0)))]))
  {
    var p := [ImportDecl(None, [DefaultSpec("foo", None), NamedSpec("bar", "bar", None)], "bar")];
    var t := ImportDecl(None, [NamedSpec("bar", "bar", None)], "bar");
    assert Without(p[0].specs, 0) == t.specs;
    assert DeleteMember(p[0], SpecAt(0)) == t;
    assert p[0 := t] == [t];
  }

  /** `const { foo } = require("bar")`, removing `foo`, leaves nothing; `import("foo")` cannot be removed. */
  lemma RemoveLoneAndDynamic()
    ensures Remove([VarDecl(Const, [Declarator(PObj([Prop(KeyId("foo"), TargetId("foo"), true)]), Require(Lit("bar")))])],
                   Anchor(0, PropAt(0, 0))).value.prog == []
    ensures Remove([ExprStmt([Lit("foo")])], Anchor(0, CallAt(0))) == Err(Unsupported(RemoveOp, DynamicImport, Some("foo")))
  {
  }

  // ---------------------------------------------------------------- fork

  /** `import { foo, bar } from "bar"`, forking `foo`: after gives `bar` then `foo`, before gives `foo` then `bar`. */
  lemma ForkTwoNamed()
    ensures var p := [ImportDecl(None, [NamedSpec("foo", "foo", None), NamedSpec("bar", "bar", None)], "bar")];
      var foo, bar := ImportDecl(None, [NamedSpec("foo", "foo", None)], "bar"), ImportDecl(None, [NamedSpec("bar", "bar", None)], "bar");
      && Fork(p, Anchor(0, SpecAt(0)), false).value.prog == [bar, foo]
      && Fork(p, Anchor(0, SpecAt(0)), true).value.prog == [foo, bar]
  {
    var foo, bar := NamedSpec("foo", "foo", None), NamedSpec("bar", "bar", None);
    var p := [ImportDecl(None, [foo, bar], "bar")];
    assert Without([foo, bar], 0) == [bar];
    assert Insert(p, 1, ImportDecl(None, [foo], "bar")) == [p[0], ImportDecl(None, [foo], "bar")];
    assert Insert(p, 0, ImportDecl(None, [foo], "bar")) == [ImportDecl(None, [foo], "bar"), p[0]];
  }

  /** `const { foo, bar } = require("bar")`, forking `foo`, gives `const { bar } = …; const { foo } = …`. */
  lemma ForkDestructured()
    ensures var foo, bar := Prop(KeyId("foo"), TargetId("foo"), true), Prop(KeyId("bar"), TargetId("bar"), true);
      Fork([VarDecl(Const, [Declarator(PObj([foo, bar]), Require(Lit("bar")))])], Anchor(0, PropAt(0, 0)), false).value.prog
      == [VarDecl(Const, [Declarator(PObj([bar]), Require(Lit("bar")))]),
          VarDecl(Const, [Declarator(PObj([foo]), Require(Lit("bar")))])]
  {
    var foo, bar := Prop(KeyId("foo"), TargetId("foo"), true), Prop(KeyId("bar"), TargetId("bar"), true);
    var p := [VarDecl(Const, [Declarator(PObj([foo, bar]), Require(Lit("bar")))])];
    var solo := VarDecl(Const, [Declarator(PObj([foo]), Require(Lit("bar")))]);
    var rest := VarDecl(Const, [Declarator(PObj([bar]), Require(Lit("bar")))]);
    assert Without([foo, bar], 0) == [bar];
    assert DeleteMember(p[0], PropAt(0, 0)) == rest;
    assert SoloStmt(p[0], PropAt(0, 0)) == Ok(solo);
    assert Insert(p, 1, solo)[0 := rest] == [rest, solo];
  }

  // -------------------------------------------------------------- source

  /** `import foo, { bar } from "bar"`, setting the source of `foo`, gives `import { bar } from "bar"; import foo from "new-source"`. */
  lemma SourceOfForkedDefault()
    ensures SetSource([ImportDecl(None, [DefaultSpec("foo", None), NamedSpec("bar", "bar", None)], "bar")],
                      Anchor(0, SpecAt(0)), Some("new-source")).value.prog
      == [ImportDecl(None, [NamedSpec("bar", "bar", None)], "bar"), ImportDecl(None, [DefaultSpec("foo", None)], "new-source")]
  {
    var foo, bar := DefaultSpec("foo", None), NamedSpec("bar", "bar", None);
    var p := [ImportDecl(None, [foo, bar], "bar")];
    assert Without([foo, bar], 0) == [bar];
    assert Insert(p, 1, ImportDecl(None, [foo], "bar")) == [p[0], ImportDecl(None, [foo], "bar")];
  }

  /** The source of a dynamic import and of a bare import can be set in place. */
  lemma SourceOfDynamicAndBare()
    ensures SetSource([ExprStmt([Lit("foo")])], Anchor(0, CallAt(0)), Some("new-source")).value.prog == [ExprStmt([Lit("new-source")])]
    ensures SetSource([ImportDecl(None, [], "foo")], Anchor(0, Whole), Some("new-source")).value.prog == [ImportDecl(None, [], "new-source")]
  {
    var d := ExprStmt([Lit("foo")]);
    assert WithSource(d, CallAt(0), "new-source") == ExprStmt([Lit("new-source")]);
    assert [d][0 := ExprStmt([Lit("new-source")])] == [ExprStmt([Lit("new-source")])];
  }

  // ------------------------------------------------------- variable name

  /** `import { foo, bar } from "bar"` renaming `foo` gives `import { foo as newVar, bar } from "bar"`; `const { foo } = require("bar")` gives `const { foo: newVar } = …`. */
  lemma RenameNamedAndProperty()
    ensures SetVariableName([ImportDecl(None, [NamedSpec("foo", "foo", None), NamedSpec("bar", "bar", None)], "bar")],
                            Anchor(0, SpecAt(0)), Some("newVar")).value.prog
      == [ImportDecl(None, [NamedSpec("foo", "newVar", None), NamedSpec("bar", "bar", None)], "bar")]
    ensures SetVariableName([VarDecl(Const, [Declarator(PObj([Prop(KeyId("foo"), TargetId("foo"), true)]), Require(Lit("bar")))])],
                            Anchor(0, PropAt(0, 0)), Some("newVar")).value.prog
      == [VarDecl(Const, [Declarator(PObj([Prop(KeyId("foo"), TargetId("newVar"), false)]), Require(Lit("bar")))])]
  {
    var s := ImportDecl(None, [NamedSpec("foo", "foo", None), NamedSpec("bar", "bar", None)], "bar");
    var s' := ImportDecl(None, [NamedSpec("foo", "newVar", None), NamedSpec("bar", "bar", None)], "bar");
    assert s.specs[0 := RenameSpec(s.specs[0], "newVar")] == s'.specs;
    assert Renamed(s, SpecAt(0), "newVar") == Ok(s');
    assert [s][0 := s'] == [s'];
    var v := VarDecl(Const, [Declarator(PObj([Prop(KeyId("foo"), TargetId("foo"), true)]), Require(Lit("bar")))]);
    var v' := VarDecl(Const, [Declarator(PObj([Prop(KeyId("foo"), TargetId("newVar"), false)]), Require(Lit("bar")))]);
    var np := Prop(KeyId("foo"), TargetId("newVar"), false);
    assert v.decls[0].id.props[0 := np] == [np];
    assert v.decls[0 := v.decls[0].(id := PObj([np]))] == v'.decls;
    assert Renamed(v, PropAt(0, 0), "newVar") == Ok(v');
    assert [v][0 := v'] == [v'];
  }

  /** A bare import has no name to change. */
  lemma RenameBareFails()
    ensures SetVariableName([ImportDecl(None, [], "foo")], Anchor(0, Whole), Some("newVar"))
      == Err(Unsupported(VariableNameAttr, EsmImport, Some("foo")))
  {
  }

  // ----------------------------------------------------- imported export

  /** `import foo from "foo"` set to export `bar` becomes `import { bar as foo } from "foo"`. */
  lemma DefaultToNamed()
    ensures SetImportedExport([ImportDecl(None, [DefaultSpec("foo", None)], "foo")], Anchor(0, SpecAt(0)), Some("bar"), false).value.prog
      == [ImportDecl(None, [NamedSpec("bar", "foo", None)], "foo")]
  {
    var p := [ImportDecl(None, [DefaultSpec("foo", None)], "foo")];
    var t := ImportDecl(None, [NamedSpec("bar", "foo", None)], "foo");
    assert Rebound(p[0], SpecAt(0), Some("bar"), false) == Ok(t);
    assert Without(Insert(p, 1, t), 0) == [t];
  }

  /** `import foo from "foo"` set to the CJS namespace becomes `const foo = require("foo")`, and to CJS `bar` becomes `const { bar: foo } = require("foo")`. */
  lemma DefaultToCjs()
    ensures SetImportedExport([ImportDecl(None, [DefaultSpec("foo", None)], "foo")], Anchor(0, SpecAt(0)), Some("*"), true).value.prog
      == [VarDecl(Const, [Declarator(PId("foo"), Require(Lit("foo")))])]
    ensures SetImportedExport([ImportDecl(None, [DefaultSpec("foo", None)], "foo")], Anchor(0, SpecAt(0)), Some("bar"), true).value.prog
      == [VarDecl(Const, [Declarator(PObj([Prop(KeyId("bar"), TargetId("foo"), false)]), Require(Lit("foo")))])]
  {
    var p := [ImportDecl(None, [DefaultSpec("foo", None)], "foo")];
    var t1 := VarDecl(Const, [Declarator(PId("foo"), Require(Lit("foo")))]);
    var t2 := VarDecl(Const, [Declarator(PObj([Prop(KeyId("bar"), TargetId("foo"), false)]), Require(Lit("foo")))]);
    assert Without(Insert(p, 1, t1), 0) == [t1];
    assert Without(Insert(p, 1, t2), 0) == [t2];
  }

  /** The imported export of a bare import cannot change. */
  lemma BareImportedExportFails()
    ensures SetImportedExport([ImportDecl(None, [], "foo")], Anchor(0, Whole), Some("default"), false)
      == Err(Unsupported(ImportedExportAttr, EsmImport, Some("foo")))
  {
  }

  // ---------------------------------------------------------------- kind

  /** `import foo, { bar } from "bar"` with `foo` set to type gives `import { bar } from "bar"; import type foo from "bar"`. */
  lemma KindOfForkedDefault()
    ensures SetKind([ImportDecl(None, [DefaultSpec("foo", None), NamedSpec("bar", "bar", None)], "bar")], Anchor(0, SpecAt(0)), "type").value.prog
      == [ImportDecl(None, [NamedSpec("bar", "bar", None)], "bar"), ImportDecl(Some(Type), [DefaultSpec("foo", None)], "bar")]
  {
    var foo, bar := DefaultSpec("foo", None), NamedSpec("bar", "bar", None);
    var p := [ImportDecl(None, [foo, bar], "bar")];
    var rest, solo := ImportDecl(None, [bar], "bar"), ImportDecl(None, [foo], "bar");
    assert Without([foo, bar], 0) == [bar];
    assert DeleteMember(p[0], SpecAt(0)) == rest;
    var q := Insert(p, 1, solo)[0 := rest];
    assert q == [rest, solo];
    assert Retyped(solo, SpecAt(0), Type) == ImportDecl(Some(Type), [foo], "bar");
    assert q[1 := ImportDecl(Some(Type), [foo], "bar")] == [rest, ImportDecl(Some(Type), [foo], "bar")];
  }

  /** `const foo = require("bar")` set to type becomes `import type * as foo from "bar"`. */
  lemma KindOfRequire()
    ensures SetKind([VarDecl(Const, [Declarator(PId("foo"), Require(Lit("bar")))])], Anchor(0, DeclaratorAt(0)), "type").value.prog
      == [ImportDecl(Some(Type), [NamespaceSpec("foo", None)], "bar")]
  {
    var p := [VarDecl(Const, [Declarator(PId("foo"), Require(Lit("bar")))])];
    var t := ImportDecl(None, [NamespaceSpec("foo", None)], "bar");
    assert Rebound(p[0], DeclaratorAt(0), Some("*"), false) == Ok(t);
    assert Without(Insert(p, 1, t), 0) == [t];
    assert Retyped(t, SpecAt(0), Type) == ImportDecl(Some(Type), [NamespaceSpec("foo", None)], "bar");
    assert [t][0 := Retyped(t, SpecAt(0), Type)] == [ImportDecl(Some(Type), [NamespaceSpec("foo", None)], "bar")];
  }

  /** Setting the current kind is a no-op even on a dynamic import; any other kind fails there and on a bare import, and an unknown kind always fails. */
  lemma KindFailures()
    ensures SetKind([ExprStmt([Lit("foo")])], Anchor(0, CallAt(0)), "value") == Ok(Outcome([ExprStmt([Lit("foo")])], Anchor(0, CallAt(0)), []))
    ensures SetKind([ExprStmt([Lit("foo")])], Anchor(0, CallAt(0)), "type") == Err(Unsupported(KindAttr, DynamicImport, Some("foo")))
    ensures SetKind([ImportDecl(None, [], "foo")], Anchor(0, Whole), "type") == Err(Unsupported(KindAttr, EsmImport, Some("foo")))
    ensures SetKind([ImportDecl(None, [DefaultSpec("foo", None)], "bar")], Anchor(0, SpecAt(0)), "banana") == Err(InvalidKind("banana"))
  {
  }
}

=== FILE: parse_request.dfy ===
/**
 The run-on-server request parser: turns a request body into the code to
 evaluate and the arguments to hand it. A function string is wrapped into
 an immediately applied call with the arguments serialised into the code;
 a code string is taken as it is and the arguments are passed alongside.
 JSON serialisation is a parameter.
 */
module ParseRequest {
  import opened Wrappers

  /**
   A request body. A field that is absent, null or not a string is `None`;
   `args` is `None` when absent or null.
   */
  datatype Request<V> = Request(functionString: Option<string>, codeString: Option<string>, args: Option<seq<V>>)

  /** What is evaluated: `args` is `None` when they were serialised into `code`. */
  datatype Parsed<V> = Parsed(code: string, args: Option<seq<V>>)

  /** Neither `functionString` nor `codeString` is a string. */
  datatype RequestError = NoCode

  /** The request's arguments, an absent or null list read as empty. */
  function ArgsOf<V>(req: Request<V>): (r: seq<V>)
    ensures req.args.None? ==> r == []
    ensures req.args.Some? ==> r == req.args.value
  {
    if req.args.None? then [] else req.args.value
  }

  /** `(<fs>).apply(null, <json>);` */
  function ApplyCall(fs: string, json: string): (r: string)
    ensures |r| == |fs| + |json| + 17
    ensures r[..1] == "(" && r[1..|fs| + 1] == fs && r[|fs| + 1..|fs| + 15] == ").apply(null, "
    ensures r[|fs| + 15..|r| - 2] == json && r[|r| - 2..] == ");"
  {
    "(" + fs + ").apply(null, " + json + ");"
  }

  function Parse<V>(req: Request<V>, stringify: seq<V> -> string): (r: Result<Parsed<V>, RequestError>)
    ensures r.Err? <==> req.functionString.None? && req.codeString.None?
    ensures r.Ok? ==> (r.value.args.None? <==> req.functionString.Some?)
    ensures req.functionString.Some? ==>
      r.Ok? && r.value.code == ApplyCall(req.functionString.value, stringify(ArgsOf(req)))
    ensures req.functionString.None? && req.codeString.Some? ==>
      r.Ok? && r.value.code == req.codeString.value && r.value.args == Some(ArgsOf(req))
  {
    match req.functionString
    case Some(fs) => Ok(Parsed(ApplyCall(fs, stringify(ArgsOf(req))), None))
    case None =>
      match req.codeString
      case Some(cs) => Ok(Parsed(cs, Some(ArgsOf(req))))
      case None => Err(NoCode)
  }

  /** The function string wins: with one present, the code string plays no part. */
  lemma FunctionStringTakesPrecedence<V>(req: Request<V>, stringify: seq<V> -> string, other: Option<string>)
    requires req.functionString.Some?
    ensures Parse(req, stringify) == Parse(req.(codeString := other), stringify)
  {
  }

  /** A null or missing argument list behaves exactly like an empty one. */
  lemma NullArgsAreEmpty<V>(req: Request<V>, stringify: seq<V> -> string)
    ensures Parse(req.(args := None), stringify) == Parse(req.(args := Some([])), stringify)
  {
  }

  /** The function string can be read back out of the generated code. */
  lemma FunctionStringRecoverable<V>(req: Request<V>, stringify: seq<V> -> string)
    requires req.functionString.Some?
    ensures var code := Parse(req, stringify).value.code;
      code[1..|req.functionString.value| + 1] == req.functionString.value
  {
  }
}

=== FILE: rewrite.dfy ===
/**
 The matching rewrite: every entity of a program whose source, variable
 name and imported export equal those of a sample import is overwritten
 with the source, variable name and imported export of a replacement
 import, assigned in that order. The sample and the replacement are the
 first entities collected from their own snippets.

 The walk keeps one anchor per collected entity and moves it through the
 edit log of every mutation, as the syntax-tree adapter moves live paths;
 an entity whose syntax an earlier rewrite deleted is skipped.
 */
module Rewrite {
  import opened Wrappers
  import opened Syntax
  import opened ImportDefinition
  import opened Edits
  import opened ImportMutation
  import opened ImportsVisitor

  datatype RewriteError =
    | NoSample               // the sample snippet declares no import
    | NoReplacement          // an entity matched, but the replacement snippet declares no import
    | Failed(cause: MutationError)

  /** The program so far, and where each collected entity now lives (`None` once its syntax is gone). */
  datatype Progress = Progress(prog: Program, anchors: seq<Option<Anchor>>)

  /** The first entity a snippet declares, as the pattern or the replacement. */
  function FirstView(p: Program): (r: Option<View>)
    ensures r.Some? <==> |Collect(p)| > 0
    ensures r.Some? ==> Valid(p, Collect(p)[0]) && r.value == ViewOf(p, Collect(p)[0])
  {
    var entities := Collect(p);
    if |entities| == 0 then None
    else
      assert entities[0] in entities;
      Some(ViewOf(p, entities[0]))
  }

  /** The four fields compared against the sample: source, variable name, and both halves of the imported export. */
  predicate Matches(v: View, pattern: View) {
    && v.source == pattern.source
    && v.variableName == pattern.variableName
    && v.importedExport.name == pattern.importedExport.name
    && v.importedExport.cjs == pattern.importedExport.cjs
  }

  /**
   Overwrites the entity at `a` with the replacement's source, then its
   variable name, then its imported export; the last step rebuilds the
   binding from the name and source the first two wrote.
   */
  function Replace(p: Program, a: Anchor, with: View): (r: Result<Outcome, MutationError>)
    requires Valid(p, a)
    ensures r.Ok? ==> Valid(r.value.prog, r.value.anchor)
    ensures r.Ok? ==>
      var w := ViewOf(r.value.prog, r.value.anchor);
      w.source == with.source && w.variableName == with.variableName && w.importedExport == with.importedExport
    ensures with.source.None? ==> r.Err?
  {
    var o1 :- SetSource(p, a, with.source);
    var o2 :- SetVariableName(o1.prog, o1.anchor, with.variableName);
    var o3 :- SetImportedExport(o2.prog, o2.anchor, with.importedExport.name, with.importedExport.cjs);
    Ok(Outcome(o3.prog, o3.anchor, o1.log + o2.log + o3.log))
  }

  /**
   Replacing one entity keeps every other entity's view and keeps it apart
   from the replaced one; an entity stops being tracked only when it shared
   the replaced entity's `require` declaration, which went with the old
   binding.
   */
  lemma ReplaceKeeps(p: Program, a: Anchor, with: View)
    requires Valid(p, a) && Replace(p, a, with).Ok?
    ensures Keeps(p, Replace(p, a, with).value.prog, Replace(p, a, with).value.log)
    ensures Separated(p, Replace(p, a, with).value.log, a, Replace(p, a, with).value.anchor)
    ensures forall b | Valid(p, b) && b != a && RelocateAll(b, Replace(p, a, with).value.log).None? ::
      b.stmt == a.stmt && p[a.stmt].VarDecl?
  {
    var o1 := SetSource(p, a, with.source).value;
    var o2 := SetVariableName(o1.prog, o1.anchor, with.variableName).value;
    var o3 := SetImportedExport(o2.prog, o2.anchor, with.importedExport.name, with.importedExport.cjs).value;
    SetSourceKeeps(p, a, with.source);
    SetVariableNameKeeps(o1.prog, o1.anchor, with.variableName);
    SetImportedExportKeeps(o2.prog, o2.anchor, with.importedExport.name, with.importedExport.cjs);
    KeepsConcat(p, o1.prog, o2.prog, o1.log, o2.log);
    KeepsConcat(p, o2.prog, o3.prog, o1.log + o2.log, o3.log);
    SeparatedConcat(p, o1.prog, o1.log, o2.log, a, o1.anchor, o2.anchor);
    SeparatedConcat(p, o2.prog, o1.log + o2.log, o3.log, a, o2.anchor, o3.anchor);
    TracksOthersConcat(p, o1.prog, o1.log, o2.log, a, o1.anchor);
    forall b | Valid(p, b) && b != a && RelocateAll(b, o1.log + o2.log + o3.log).None?
      ensures b.stmt == a.stmt && p[a.stmt].VarDecl?
    {
      RelocateAllConcat(b, o1.log + o2.log, o3.log);
      var c := RelocateAll(b, o1.log + o2.log).value;
      assert Valid(o2.prog, c) && c != o2.anchor && Retires(o2.prog, o2.anchor, c);
      assert FlavorOf(o2.prog[c.stmt], c.loc) == RequireFlavor;
    }
  }

  /** Every tracked anchor, moved through `log`. */
  function RelocateEach(anchors: seq<Option<Anchor>>, log: seq<Edit>): (r: seq<Option<Anchor>>)
    ensures |r| == |anchors|
    ensures forall k :: 0 <= k < |r| ==> r[k] == (if anchors[k].Some? then RelocateAll(anchors[k].value, log) else None)
  {
    seq(|anchors|, k requires 0 <= k < |anchors| => if anchors[k].Some? then RelocateAll(anchors[k].value, log) else None)
  }

  /** Every live anchor is a valid anchor of the current program. */
  predicate AllValid(s: Progress) {
    forall k :: 0 <= k < |s.anchors| && s.anchors[k].Some? ==> Valid(s.prog, s.anchors[k].value)
  }

  lemma RelocatedValid(p: Program, q: Program, anchors: seq<Option<Anchor>>, log: seq<Edit>)
    requires AllValid(Progress(p, anchors)) && Keeps(p, q, log)
    ensures AllValid(Progress(q, RelocateEach(anchors, log)))
    ensures forall k :: 0 <= k < |anchors| && RelocateEach(anchors, log)[k].Some? ==>
      anchors[k].Some? && ViewOf(q, RelocateEach(anchors, log)[k].value) == ViewOf(p, anchors[k].value)
  {
  }

  /** Visits entity `m`: rewrites it when it still exists and matches. */
  function Step(s: Progress, m: nat, pattern: View, with: Option<View>): (r: Result<Progress, RewriteError>)
    requires m < |s.anchors| && AllValid(s)
    ensures r.Ok? ==> AllValid(r.value) && |r.value.anchors| == |s.anchors|
  {
    match s.anchors[m]
    case None => Ok(s)
    case Some(a) =>
      if !Matches(ViewOf(s.prog, a), pattern) then Ok(s)
      else
        match with
        case None => Err(NoReplacement)
        case Some(w) =>
          match Replace(s.prog, a, w)
          case Err(e) => Err(Failed(e))
          case Ok(o) =>
            ReplaceKeeps(s.prog, a, w);
            RelocatedValid(s.prog, o.prog, s.anchors, o.log);
            Ok(Progress(o.prog, RelocateEach(s.anchors, o.log)[m := Some(o.anchor)]))
  }

  /** Visits entities `m` onwards, in collection order. */
  function RewriteFrom(s: Progress, m: nat, pattern: View, with: Option<View>): (r: Result<Progress, RewriteError>)
    requires m <= |s.anchors| && AllValid(s)
    ensures r.Ok? ==> AllValid(r.value) && |r.value.anchors| == |s.anchors|
    decreases |s.anchors| - m
  {
    if m == |s.anchors| then Ok(s)
    else
      var s' :- Step(s, m, pattern, with);
      RewriteFrom(s', m + 1, pattern, with)
  }

  /** Each collected entity, at its own anchor. */
  function Initial(entities: seq<Anchor>): (r: seq<Option<Anchor>>)
    ensures |r| == |entities| && forall k :: 0 <= k < |r| ==> r[k] == Some(entities[k])
  {
    seq(|entities|, k requires 0 <= k < |entities| => Some(entities[k]))
  }

  /** The rewrite, with the final whereabouts of every collected entity. */
  function RewriteTrace(code: Program, sample: Program, replacement: Program): (r: Result<Progress, RewriteError>)
    ensures |Collect(code)| == 0 ==> r == Ok(Progress(code, []))
    ensures |Collect(code)| > 0 && FirstView(sample).None? ==> r == Err(NoSample)
    ensures r.Ok? ==> AllValid(r.value) && |r.value.anchors| == |Collect(code)|
  {
    var entities := Collect(code);
    if |entities| == 0 then Ok(Progress(code, []))
    else
      match FirstView(sample)
      case None => Err(NoSample)
      case Some(pattern) =>
        assert AllValid(Progress(code, Initial(entities))) by {
          forall k | 0 <= k < |entities| ensures Valid(code, entities[k]) {
            assert entities[k] in entities;
          }
        }
        RewriteFrom(Progress(code, Initial(entities)), 0, pattern, FirstView(replacement))
  }

  /** `rewrite(code, sampleImport, newImport)`, on programs rather than text. */
  function RewriteProgram(code: Program, sample: Program, replacement: Program): (r: Result<Program, RewriteError>)
    ensures RewriteTrace(code, sample, replacement).Ok? <==> r.Ok?
    ensures r.Ok? ==> r.value == RewriteTrace(code, sample, replacement).value.prog
  {
    var t :- RewriteTrace(code, sample, replacement);
    Ok(t.prog)
  }

  // ------------------------------------------------------------------------
  // What the rewrite does to each entity.

  /** How an entity that started as `v0` ends up as `v`: overwritten when it matched, untouched otherwise. */
  predicate Rewritten(v0: View, v: View, pattern: View, with: Option<View>) {
    if Matches(v0, pattern) then
      with.Some? && v.source == with.value.source && v.variableName == with.value.variableName
      && v.importedExport == with.value.importedExport
    else v == v0
  }

  /**
   Live anchors are distinct, and two of them share a statement only when
   their entities started out in one.
   */
  ghost predicate Apart(code: Program, s: Progress)
    requires |s.anchors| == |Collect(code)|
  {
    forall k1, k2 {:trigger s.anchors[k1], s.anchors[k2]}
      | 0 <= k1 < |s.anchors| && 0 <= k2 < |s.anchors| && k1 != k2 && s.anchors[k1].Some? && s.anchors[k2].Some? ::
      && s.anchors[k1] != s.anchors[k2]
      && (s.anchors[k1].value.stmt == s.anchors[k2].value.stmt ==> Collect(code)[k1].stmt == Collect(code)[k2].stmt)
  }

  /** Entities `j` and `k` are two bindings of one `require` declaration. */
  ghost predicate SharesRequire(code: Program, j: nat, k: nat)
    requires j < |Collect(code)| && k < |Collect(code)|
  {
    && j != k
    && Collect(code)[j].stmt == Collect(code)[k].stmt
    && code[Collect(code)[k].stmt].VarDecl?
  }

  /**
   Entity `j` matched the sample and shares entity `k`'s `require`
   declaration: replacing `j` can delete that whole declaration, and `k`
   with it.
   */
  ghost predicate TakenWith(code: Program, pattern: View, j: nat, k: nat)
    requires j < |Collect(code)| && k < |Collect(code)|
  {
    Matches(ViewOf(code, Collect(code)[j]), pattern) && SharesRequire(code, j, k)
  }

  /** The entities below `m` that match the sample. */
  ghost function Matched(code: Program, pattern: View, m: nat): (r: set<nat>)
    requires m <= |Collect(code)|
    ensures forall j | j in r :: j < m
  {
    if m == 0 then {}
    else Matched(code, pattern, m - 1) + (if Matches(ViewOf(code, Collect(code)[m - 1]), pattern) then {m - 1} else {})
  }

  lemma {:induction false} MatchedMeans(code: Program, pattern: View, m: nat, j: nat)
    requires m <= |Collect(code)|
    ensures j in Matched(code, pattern, m) <==> j < m && Matches(ViewOf(code, Collect(code)[j]), pattern)
  {
    if m > 0 {
      MatchedMeans(code, pattern, m - 1, j);
    }
  }

  /**
   After visiting entities below `m`: those report their rewritten view, the
   rest their original one; live anchors stay apart, and an entity is no
   longer tracked only because a visited entity was taken with it.
   */
  ghost predicate Tracks(code: Program, pattern: View, with: Option<View>, s: Progress, m: nat) {
    && m <= |s.anchors| == |Collect(code)|
    && AllValid(s)
    && ViewsTracked(code, pattern, with, s, m)
    && Apart(code, s)
    && LossExplained(code, pattern, s, m)
  }

  /** Entities below `m` report their rewritten view, the rest their original one. */
  ghost predicate ViewsTracked(code: Program, pattern: View, with: Option<View>, s: Progress, m: nat)
    requires |s.anchors| == |Collect(code)| && AllValid(s)
  {
    forall k {:trigger s.anchors[k]} :: 0 <= k < |s.anchors| && s.anchors[k].Some? ==>
      Valid(code, Collect(code)[k]) &&
      var v0, v := ViewOf(code, Collect(code)[k]), ViewOf(s.prog, s.anchors[k].value);
      if k < m then Rewritten(v0, v, pattern, with) else v == v0
  }

  /** Every entity no longer tracked shares its `require` declaration with a visited entity that matched. */
  ghost predicate LossExplained(code: Program, pattern: View, s: Progress, m: nat)
    requires m <= |s.anchors| == |Collect(code)|
  {
    forall k {:trigger s.anchors[k]} | 0 <= k < |s.anchors| && s.anchors[k].None? ::
      exists j :: j in Matched(code, pattern, m) && SharesRequire(code, j, k)
  }

  lemma StepTracks(code: Program, pattern: View, with: Option<View>, s: Progress, m: nat)
    requires m < |s.anchors| && Tracks(code, pattern, with, s, m)
    requires Step(s, m, pattern, with).Ok?
    ensures Tracks(code, pattern, with, Step(s, m, pattern, with).value, m + 1)
  {
    match s.anchors[m]
    case None =>
      StayTracks(code, pattern, with, s, m);
    case Some(a) =>
      if Matches(ViewOf(s.prog, a), pattern) {
        var w := with.value;
        var o := Replace(s.prog, a, w).value;
        ReplaceKeeps(s.prog, a, w);
        ReplacedTracks(code, pattern, w, s, m, o.prog, o.log, o.anchor);
        assert Step(s, m, pattern, with) == Ok(Progress(o.prog, RelocateEach(s.anchors, o.log)[m := Some(o.anchor)]));
      } else {
        StayTracks(code, pattern, with, s, m);
      }
  }

  /** Visiting an entity that is gone or does not match changes nothing. */
  lemma StayTracks(code: Program, pattern: View, with: Option<View>, s: Progress, m: nat)
    requires m < |s.anchors| && Tracks(code, pattern, with, s, m)
    requires s.anchors[m].None? || !Matches(ViewOf(s.prog, s.anchors[m].value), pattern)
    ensures Tracks(code, pattern, with, s, m + 1)
  {
    forall k | 0 <= k < |s.anchors| && s.anchors[k].None?
      ensures exists j :: j in Matched(code, pattern, m + 1) && SharesRequire(code, j, k)
    {
      var j :| j in Matched(code, pattern, m) && SharesRequire(code, j, k);
      assert j in Matched(code, pattern, m + 1);
    }
  }

  /** After one replacement every part of the invariant holds one entity further on. */
  lemma ReplacedTracks(code: Program, pattern: View, w: View, s: Progress, m: nat, q: Program, log: seq<Edit>, a2: Anchor)
    requires m < |s.anchors| && Tracks(code, pattern, Some(w), s, m) && s.anchors[m].Some?
    requires Matches(ViewOf(s.prog, s.anchors[m].value), pattern)
    requires Keeps(s.prog, q, log) && Valid(q, a2)
    requires ViewOf(q, a2).source == w.source && ViewOf(q, a2).variableName == w.variableName
    requires ViewOf(q, a2).importedExport == w.importedExport
    requires Separated(s.prog, log, s.anchors[m].value, a2)
    requires forall b | Valid(s.prog, b) && b != s.anchors[m].value && RelocateAll(b, log).None? ::
      b.stmt == s.anchors[m].value.stmt && s.prog[s.anchors[m].value.stmt].VarDecl?
    ensures Tracks(code, pattern, Some(w), Progress(q, RelocateEach(s.anchors, log)[m := Some(a2)]), m + 1)
  {
    var s' := Progress(q, RelocateEach(s.anchors, log)[m := Some(a2)]);
    RelocatedValid(s.prog, q, s.anchors, log);
    assert AllValid(s');
    ReplacedViews(code, pattern, w, s, m, q, log, a2);
    ReplacedApart(code, s, m, q, log, a2);
    ReplacedLost(code, pattern, Some(w), s, m, log, a2);
  }

  /** The views after one replacement: the replaced entity is rewritten, the others keep theirs. */
  lemma ReplacedViews(code: Program, pattern: View, w: View, s: Progress, m: nat, q: Program, log: seq<Edit>, a2: Anchor)
    requires m < |s.anchors| && Tracks(code, pattern, Some(w), s, m) && s.anchors[m].Some?
    requires Matches(ViewOf(s.prog, s.anchors[m].value), pattern)
    requires Keeps(s.prog, q, log) && Valid(q, a2)
    requires ViewOf(q, a2).source == w.source && ViewOf(q, a2).variableName == w.variableName
    requires ViewOf(q, a2).importedExport == w.importedExport
    ensures AllValid(Progress(q, RelocateEach(s.anchors, log)[m := Some(a2)]))
    ensures ViewsTracked(code, pattern, Some(w), Progress(q, RelocateEach(s.anchors, log)[m := Some(a2)]), m + 1)
  {
    var s' := Progress(q, RelocateEach(s.anchors, log)[m := Some(a2)]);
    RelocatedValid(s.prog, q, s.anchors, log);
    forall k | 0 <= k < |s'.anchors| && s'.anchors[k].Some?
      ensures Valid(code, Collect(code)[k]) && Valid(q, s'.anchors[k].value)
      ensures var v0, v := ViewOf(code, Collect(code)[k]), ViewOf(q, s'.anchors[k].value);
              if k < m + 1 then Rewritten(v0, v, pattern, Some(w)) else v == v0
    {
      if k != m {
        assert s'.anchors[k] == RelocateEach(s.anchors, log)[k];
      }
    }
  }

  /** One replacement keeps the live anchors apart. */
  lemma ReplacedApart(code: Program, s: Progress, m: nat, q: Program, log: seq<Edit>, a2: Anchor)
    requires m < |s.anchors| == |Collect(code)| && AllValid(s) && Apart(code, s) && s.anchors[m].Some?
    requires Keeps(s.prog, q, log) && Separated(s.prog, log, s.anchors[m].value, a2)
    ensures |RelocateEach(s.anchors, log)[m := Some(a2)]| == |Collect(code)|
    ensures Apart(code, Progress(q, RelocateEach(s.anchors, log)[m := Some(a2)]))
  {
    var a := s.anchors[m].value;
    var t := RelocateEach(s.anchors, log)[m := Some(a2)];
    forall k1, k2 | 0 <= k1 < |t| && 0 <= k2 < |t| && k1 != k2 && t[k1].Some? && t[k2].Some?
      ensures t[k1] != t[k2]
      ensures t[k1].value.stmt == t[k2].value.stmt ==> Collect(code)[k1].stmt == Collect(code)[k2].stmt
    {
      if k1 != m && k2 != m {
        RelocateAllSeparates(s.anchors[k1].value, s.anchors[k2].value, log);
      } else if k1 == m {
        assert s.anchors[k2].value != a && Valid(s.prog, s.anchors[k2].value);
      } else {
        assert s.anchors[k1].value != a && Valid(s.prog, s.anchors[k1].value);
      }
    }
  }

  /** An entity one replacement stops tracking was taken with the replaced one. */
  lemma ReplacedLost(code: Program, pattern: View, with: Option<View>, s: Progress, m: nat, log: seq<Edit>, a2: Anchor)
    requires m < |s.anchors| && Tracks(code, pattern, with, s, m) && s.anchors[m].Some?
    requires Matches(ViewOf(s.prog, s.anchors[m].value), pattern)
    requires forall b | Valid(s.prog, b) && b != s.anchors[m].value && RelocateAll(b, log).None? ::
      b.stmt == s.anchors[m].value.stmt && s.prog[s.anchors[m].value.stmt].VarDecl?
    ensures LossExplained(code, pattern, Progress(s.prog, RelocateEach(s.anchors, log)[m := Some(a2)]), m + 1)
  {
    var a := s.anchors[m].value;
    var t := RelocateEach(s.anchors, log)[m := Some(a2)];
    assert m in Matched(code, pattern, m + 1);
    forall k | 0 <= k < |t| && t[k].None?
      ensures exists j :: j in Matched(code, pattern, m + 1) && SharesRequire(code, j, k)
    {
      if s.anchors[k].None? {
        var j :| j in Matched(code, pattern, m) && SharesRequire(code, j, k);
        assert j in Matched(code, pattern, m + 1);
      } else {
        var c := s.anchors[k].value;
        assert k != m && c != a && Valid(s.prog, c);
        assert FlavorOf(s.prog[a.stmt], a.loc) == RequireFlavor;
        assert SharesRequire(code, m, k);
      }
    }
  }

  lemma {:induction false} RewriteFromTracks(code: Program, pattern: View, with: Option<View>, s: Progress, m: nat, r: Progress)
    requires m <= |s.anchors| && Tracks(code, pattern, with, s, m)
    requires RewriteFrom(s, m, pattern, with) == Ok(r)
    ensures Tracks(code, pattern, with, r, |r.anchors|)
    decreases |s.anchors| - m
  {
    if m < |s.anchors| {
      var s' := TracksOnward(code, pattern, with, s, m, r);
      RewriteFromTracks(code, pattern, with, s', m + 1, r);
    } else {
      TracksAtEnd(code, pattern, with, s, m, r);
    }
  }

  /** One visit of the loop keeps the invariant and leaves the rest of the loop to produce `r`. */
  lemma TracksOnward(code: Program, pattern: View, with: Option<View>, s: Progress, m: nat, r: Progress) returns (s': Progress)
    requires m < |s.anchors| && Tracks(code, pattern, with, s, m)
    requires RewriteFrom(s, m, pattern, with) == Ok(r)
    ensures |s'.anchors| == |s.anchors| && Tracks(code, pattern, with, s', m + 1)
    ensures RewriteFrom(s', m + 1, pattern, with) == Ok(r)
  {
    s' := Step(s, m, pattern, with).value;
    assert RewriteFrom(s', m + 1, pattern, with) == Ok(r);
    StepTracks(code, pattern, with, s, m);
  }

  /** When every entity has been visited the loop's result is its current state. */
  lemma TracksAtEnd(code: Program, pattern: View, with: Option<View>, s: Progress, m: nat, r: Progress)
    requires m == |s.anchors| && Tracks(code, pattern, with, s, m)
    requires RewriteFrom(s, m, pattern, with) == Ok(r)
    ensures Tracks(code, pattern, with, r, |r.anchors|)
  {
    assert r == s;
  }

  /**
   The rewrite's promise: every entity of the original program that still
   exists afterwards reports the replacement's source, variable name and
   imported export if it matched the sample, and exactly its old view if it
   did not.
   */
  lemma RewriteSound(code: Program, sample: Program, replacement: Program)
    requires RewriteTrace(code, sample, replacement).Ok? && |Collect(code)| > 0
    ensures FirstView(sample).Some?
    ensures var t := RewriteTrace(code, sample, replacement).value;
      forall k :: 0 <= k < |t.anchors| && t.anchors[k].Some? ==>
        Valid(code, Collect(code)[k]) && Valid(t.prog, t.anchors[k].value) &&
        Rewritten(ViewOf(code, Collect(code)[k]), ViewOf(t.prog, t.anchors[k].value), FirstView(sample).value, FirstView(replacement))
    ensures var t := RewriteTrace(code, sample, replacement).value;
      forall k :: 0 <= k < |t.anchors| && t.anchors[k].None? ==>
        k < |Collect(code)| && exists j :: 0 <= j < |Collect(code)| && TakenWith(code, FirstView(sample).value, j, k)
  {
    var entities := Collect(code);
    var pattern := FirstView(sample).value;
    var s0 := Progress(code, Initial(entities));
    assert Tracks(code, pattern, FirstView(replacement), s0, 0) by {
      CollectDistinct(code);
      forall k | 0 <= k < |entities| ensures Valid(code, entities[k]) {
        assert entities[k] in entities;
      }
    }
    var t := RewriteTrace(code, sample, replacement).value;
    RewriteFromTracks(code, pattern, FirstView(replacement), s0, 0, t);
    forall k | 0 <= k < |t.anchors| && t.anchors[k].None?
      ensures k < |Collect(code)| && exists j :: 0 <= j < |Collect(code)| && TakenWith(code, pattern, j, k)
    {
      var j :| j in Matched(code, pattern, |entities|) && SharesRequire(code, j, k);
      MatchedMeans(code, pattern, |entities|, j);
      assert TakenWith(code, pattern, j, k);
    }
  }

  /** When no entity from `m` on matches the sample, the walk changes nothing. */
  lemma {:induction false} IdleFrom(s: Progress, pattern: View, with: Option<View>, m: nat)
    requires AllValid(s) && m <= |s.anchors|
    requires forall k :: m <= k < |s.anchors| && s.anchors[k].Some? ==> !Matches(ViewOf(s.prog, s.anchors[k].value), pattern)
    ensures RewriteFrom(s, m, pattern, with) == Ok(s)
    decreases |s.anchors| - m
  {
    if m < |s.anchors| {
      assert Step(s, m, pattern, with) == Ok(s);
      IdleFrom(s, pattern, with, m + 1);
    }
  }

  /** A program none of whose entities match the sample comes back unchanged. */
  lemma NoMatchUnchanged(code: Program, sample: Program, replacement: Program)
    requires FirstView(sample).Some?
    requires forall a :: a in Collect(code) ==> !Matches(ViewOf(code, a), FirstView(sample).value)
    ensures RewriteProgram(code, sample, replacement) == Ok(code)
  {
    var entities := Collect(code);
    if |entities| > 0 {
      var s0 := Progress(code, Initial(entities));
      forall k | 0 <= k < |entities| ensures Valid(code, entities[k]) && !Matches(ViewOf(code, entities[k]), FirstView(sample).value) {
        assert entities[k] in entities;
      }
      IdleFrom(s0, FirstView(sample).value, FirstView(replacement), 0);
    }
  }

  /** When some entity from `m` on still exists and matches but the replacement snippet declares nothing, the walk fails. */
  lemma {:induction false} MatchAheadFails(s: Progress, pattern: View, m: nat, j: nat)
    requires AllValid(s) && m <= j < |s.anchors|
    requires s.anchors[j].Some? && Matches(ViewOf(s.prog, s.anchors[j].value), pattern)
    ensures RewriteFrom(s, m, pattern, None) == Err(NoReplacement)
    decreases j - m
  {
    var st := Step(s, m, pattern, None);
    if st.Ok? {
      assert st == Ok(s);
      MatchAheadFails(s, pattern, m + 1, j);
    }
  }

  /** An entity matches the sample but the replacement snippet declares no import: the rewrite fails. */
  lemma MatchWithoutReplacementFails(code: Program, sample: Program, replacement: Program, j: nat)
    requires FirstView(sample).Some? && FirstView(replacement).None?
    requires j < |Collect(code)| && Matches(ViewOf(code, Collect(code)[j]), FirstView(sample).value)
    ensures RewriteProgram(code, sample, replacement) == Err(NoReplacement)
  {
    var entities := Collect(code);
    var s0 := Progress(code, Initial(entities));
    assert AllValid(s0) by {
      forall k | 0 <= k < |entities| ensures Valid(code, entities[k]) {
        assert entities[k] in entities;
      }
    }
    MatchAheadFails(s0, FirstView(sample).value, 0, j);
  }

  /**
   `import React, { PropTypes } from "react"` rewritten with sample
   `import { PropTypes } from "react"` and replacement
   `import PropTypes from "prop-types"` becomes
   `import React from "react"; import PropTypes from "prop-types";`.
   */
  lemma ReactPropTypesExample()
    ensures RewriteProgram(ReactCode(), [ImportDecl(None, [ReactPropTypes()], "react")], [ImportDecl(None, [DefaultSpec("PropTypes", None)], "prop-types")])
      == Ok([ImportDecl(None, [DefaultSpec("React", None)], "react"),
             ImportDecl(None, [DefaultSpec("PropTypes", None)], "prop-types")])
  {
    var code := ReactCode();
    var sample := [ImportDecl(None, [ReactPropTypes()], "react")];
    var replacement := [ImportDecl(None, [DefaultSpec("PropTypes", None)], "prop-types")];
    var a0, a1 := Anchor(0, SpecAt(0)), Anchor(0, SpecAt(1));
    ReactSnippets();
    var pattern, w := FirstView(sample).value, FirstView(replacement).value;
    var s0 := Progress(code, Initial([a0, a1]));
    assert Step(s0, 0, pattern, Some(w)) == Ok(s0);
    ReactReplaced();
    var o := Replace(code, a1, w).value;
    var s1 := Progress(o.prog, RelocateEach(s0.anchors, o.log)[1 := Some(o.anchor)]);
    assert Step(s0, 1, pattern, Some(w)) == Ok(s1);
    assert RewriteFrom(s1, 2, pattern, Some(w)) == Ok(s1);
  }

  function ReactPropTypes(): Spec {
    NamedSpec("PropTypes", "PropTypes", None)
  }

  function ReactCode(): Program {
    [ImportDecl(None, [DefaultSpec("React", None), ReactPropTypes()], "react")]
  }

  /** The entities of the code, the sample and the replacement of the example above. */
  lemma ReactSnippets()
    ensures Collect(ReactCode()) == [Anchor(0, SpecAt(0)), Anchor(0, SpecAt(1))]
    ensures FirstView([ImportDecl(None, [ReactPropTypes()], "react")])
      == Some(View(Some("react"), Some("PropTypes"), ImportedExport(Some("PropTypes"), false), Value, EsmImport))
    ensures FirstView([ImportDecl(None, [DefaultSpec("PropTypes", None)], "prop-types")])
      == Some(View(Some("prop-types"), Some("PropTypes"), ImportedExport(Some("default"), false), Value, EsmImport))
  {
    var code := ReactCode();
    var sample := [ImportDecl(None, [ReactPropTypes()], "react")];
    var replacement := [ImportDecl(None, [DefaultSpec("PropTypes", None)], "prop-types")];
    assert CollectFrom(code, 1) == [];
    assert CollectStmt(code[0], 0) == [Anchor(0, SpecAt(0)), Anchor(0, SpecAt(1))];
    assert CollectFrom(sample, 1) == [];
    assert CollectFrom(replacement, 1) == [];
  }

  /** The replacement step of the example above: `PropTypes` is forked out, re-sourced and turned into a default import. */
  lemma ReactReplaced()
    ensures var w := View(Some("prop-types"), Some("PropTypes"), ImportedExport(Some("default"), false), Value, EsmImport);
      && Replace(ReactCode(), Anchor(0, SpecAt(1)), w).Ok?
      && Replace(ReactCode(), Anchor(0, SpecAt(1)), w).value.prog
         == [ImportDecl(None, [DefaultSpec("React", None)], "react"), ImportDecl(None, [DefaultSpec("PropTypes", None)], "prop-types")]
  {
    var code := ReactCode();
    var react, propTypes := DefaultSpec("React", None), ReactPropTypes();
    var a1 := Anchor(0, SpecAt(1));
    ReactSourceSet();
    var moved := [ImportDecl(None, [react], "react"), ImportDecl(None, [propTypes], "prop-types")];
    var b := Anchor(1, SpecAt(0));
    assert SetVariableName(moved, b, Some("PropTypes")).value == Outcome(moved, b, []);
    var t := ImportDecl(None, [DefaultSpec("PropTypes", None)], "prop-types");
    assert Rebound(moved[1], b.loc, Some("default"), false) == Ok(t);
    var final := [ImportDecl(None, [react], "react"), t];
    assert Without(Insert(moved, 2, t), 1) == final;
    assert SetImportedExport(moved, b, Some("default"), false).value.prog == final;
  }

  /** Setting the source forks `PropTypes` out after `React`, then rewrites its source. */
  lemma ReactSourceSet()
    ensures SetSource(ReactCode(), Anchor(0, SpecAt(1)), Some("prop-types")).value
      == Outcome([ImportDecl(None, [DefaultSpec("React", None)], "react"), ImportDecl(None, [ReactPropTypes()], "prop-types")],
                 Anchor(1, SpecAt(0)), [StmtInserted(1), MemberDeleted(Anchor(0, SpecAt(1))), Touched(Anchor(1, SpecAt(0)))])
  {
    var code := ReactCode();
    var react, propTypes := DefaultSpec("React", None), ReactPropTypes();
    var forked := [ImportDecl(None, [react], "react"), ImportDecl(None, [propTypes], "react")];
    assert Fork(code, Anchor(0, SpecAt(1)), false).value.prog == forked by {
      assert Insert(code, 1, ImportDecl(None, [propTypes], "react")) == [code[0], ImportDecl(None, [propTypes], "react")];
      assert Without([react, propTypes], 1) == [react];
    }
  }
}

=== FILE: syntax.dfy ===
/**
 The abstract syntax the import model works on: a program is the list of its
 top-level statements, and every statement shape that can declare a module
 dependency is a constructor of `Stmt`. Parsing and printing are not modelled;
 two programs are compared as values of this type.

 An `Anchor` is the index path of the one syntax location an import entity
 wraps: the statement index plus a `Loc` inside that statement.
 */
module Syntax {
  import opened Wrappers

  /** Flow's `importKind` / `exportKind` annotation. */
  datatype Kind = Value | Type | TypeOf

  function KindName(k: Kind): string {
    match k
    case Value => "value"
    case Type => "type"
    case TypeOf => "typeof"
  }

  /** Reads a kind given as text; only the three Flow spellings are kinds. */
  function ParseKind(s: string): (r: Option<Kind>)
    ensures r.Some? ==> KindName(r.value) == s
    ensures r.None? <==> (forall k: Kind :: KindName(k) != s)
  {
    if s == "value" then Some(Value)
    else if s == "type" then Some(Type)
    else if s == "typeof" then Some(TypeOf)
    else None
  }

  /**
   A specifier of an import declaration or of an `export { … } from` re-export.
   `name` is the binding the specifier introduces (the `local` identifier of an
   import specifier, the `exported` identifier of a re-export specifier);
   `remote` of a named specifier is the export it takes (`imported` of an
   import specifier, `local` of a re-export specifier). `flag` is the
   specifier's own kind annotation, as in `import { type Foo } from "foo"`.
   */
  datatype Spec =
    | DefaultSpec(name: string, flag: Option<Kind>)
    | NamespaceSpec(name: string, flag: Option<Kind>)
    | NamedSpec(remote: string, name: string, flag: Option<Kind>)

  /** The first argument of a `require(…)` or `import(…)` call. */
  datatype Arg = Lit(value: string) | NonLit

  /** The key and the value side of a property in an object pattern. */
  datatype Key = KeyId(name: string) | KeyOther
  datatype Target = TargetId(name: string) | TargetOther
  datatype Prop = Prop(key: Key, value: Target, shorthand: bool)

  /** The declared side of a variable declarator: `x`, `{ … }`, or any other pattern such as `[ … ]`. */
  datatype Pattern = PId(name: string) | PObj(props: seq<Prop>) | POther

  /** The initialiser of a declarator: a call of the identifier `require`, or anything else. */
  datatype Init = Require(arg: Arg) | NotRequire

  datatype Declarator = Declarator(id: Pattern, init: Init)

  datatype Keyword = Const | Let | Var

  /**
   Top-level statements. `ImportDecl` with no specifiers is a bare
   `import "x";`. `ExportFrom` is `export { … } from "x"` (possibly with empty
   braces), `ExportAll` is `export * from "x"`. `ExprStmt` stands for any other
   statement that contains dynamic `import(…)` calls, listed in source order.
   */
  datatype Stmt =
    | ImportDecl(flag: Option<Kind>, specs: seq<Spec>, src: string)
    | ExportFrom(flag: Option<Kind>, specs: seq<Spec>, src: string)
    | ExportAll(flag: Option<Kind>, src: string)
    | VarDecl(keyword: Keyword, decls: seq<Declarator>)
    | ExprStmt(calls: seq<Arg>)
    | OtherStmt

  type Program = seq<Stmt>

  /** A location inside one statement. */
  datatype Loc =
    | SpecAt(j: nat)           // a specifier of an import or re-export declaration
    | Whole                    // the declaration itself: bare import, `export *`, `export {}`
    | DeclaratorAt(d: nat)     // `x = require("y")` (any non-object pattern)
    | PropAt(d: nat, k: nat)   // one property of `{ … } = require("y")`
    | CallAt(c: nat)           // one dynamic `import(…)` call

  datatype Anchor = Anchor(stmt: nat, loc: Loc)

  /** The syntax locations an import entity may wrap. */
  predicate ValidLoc(s: Stmt, l: Loc) {
    match l
    case SpecAt(j) => (s.ImportDecl? || s.ExportFrom?) && j < |s.specs|
    case Whole =>
      (s.ImportDecl? && |s.specs| == 0) || s.ExportAll? || (s.ExportFrom? && |s.specs| == 0)
    case DeclaratorAt(d) =>
      s.VarDecl? && d < |s.decls| && s.decls[d].init.Require? && !s.decls[d].id.PObj?
    case PropAt(d, k) =>
      s.VarDecl? && d < |s.decls| && s.decls[d].init.Require? && s.decls[d].id.PObj?
      && k < |s.decls[d].id.props|
    case CallAt(c) => s.ExprStmt? && c < |s.calls|
  }

  predicate Valid(p: Program, a: Anchor) {
    a.stmt < |p| && ValidLoc(p[a.stmt], a.loc)
  }

  /** `xs` with its `i`-th element taken out. */
  function Without<T>(xs: seq<T>, i: nat): (r: seq<T>)
    requires i < |xs|
    ensures |r| == |xs| - 1
    ensures forall m :: 0 <= m < i ==> r[m] == xs[m]
    ensures forall m :: i <= m < |r| ==> r[m] == xs[m + 1]
  {
    xs[..i] + xs[i + 1..]
  }

  /** `xs` with `x` placed at index `i`. */
  function Insert<T>(xs: seq<T>, i: nat, x: T): (r: seq<T>)
    requires i <= |xs|
    ensures |r| == |xs| + 1 && r[i] == x
    ensures forall m :: 0 <= m < i ==> r[m] == xs[m]
    ensures forall m :: i < m < |r| ==> r[m] == xs[m - 1]
  {
    xs[..i] + [x] + xs[i..]
  }
}

=== FILE: wrappers.dfy ===
/** Failure-compatible wrappers used throughout the model. */
module Wrappers {

  /** A value that may be absent: JavaScript's `null` for a field that has none. */
  datatype Option<+T> = None | Some(value: T)

  /** The outcome of an operation that can throw: `Err` stands for the thrown error. */
  datatype Result<+T, +E> = Ok(value: T) | Err(error: E) {

    predicate IsFailure() {
      Err?
    }

    function PropagateFailure<U>(): Result<U, E>
      requires Err?
    {
      Err(error)
    }

    function Extract(): T
      requires Ok?
    {
      value
    }
  }
}
